=== FILE: README.md ===
# Washing-machine monitor: a Dafny model

This project models the logic of a MicroPython washing-machine monitor and
proves properties about it. The monitor is an ESP32 board with a LIS3DH
accelerometer, and it spends nearly all its time in deep sleep. Each wake is
one boot.

- **The boot.** The constructor initialises the accelerometer. `start` then reads the
  wake reason once and takes one of three branches:
  - **Timer wake:** poll the chat service for a `/set <sensitivity> <duration>`
    command, send the "washing done" notification, reload the settings, arm the
    ext0 pin wake-up, and sleep with no timeout.
  - **Pin wake:** sleep for 40 minutes.
  - **Any other wake:** reload the settings, arm ext0, and sleep.
- **The accelerometer driver.** An identity check, then a fixed register
  configuration. The threshold and duration setters write one register each.
  The acceleration sample is decoded as three little-endian 16-bit values.
- **Settings persistence.** Settings live in `settings.json`, and the `/set` parser
  reads and writes them.
- **The update cursor.** `lastupdateid.txt` holds the chat client's update cursor.
- **The battery server's WebSocket layer.** This covers the handshake key
  extraction, the server's frame encoder and the client frame decoder
  (sections 4.2.2, 5.2 and 5.3 of RFC 6455). It also covers the rainbow colour
  wheel and the colour-index step.
- **The deploy script.** Its rule decides which source files to copy onto the
  board.

Everything is modelled with immutable datatypes and pure functions.

- **A boot.** A boot is an ordered trace of `Effect`s: sensor transactions, the
  wake-reason read, network calls, file writes, ext0 arming, the LED switching off,
  and deep sleep. `machine.deepsleep` never returns, so deep sleep is always the
  last effect of a boot.
- **Exceptions.** Nothing in `start` catches exceptions. A raised exception ends a
  `Phase` with `raised == Some(error)`, and `Chain` skips everything after it.
- **Outside inputs.** These are parameters of the model: the sensor's WHO_AM_I answer,
  the wake reason, the chat service's reply, the outcome of the notification,
  SHA-1, base64, and the local file hashes.

Modules, one per component:

- **Common:** bytes, `Option`, `Result`, and the Python exceptions that occur.
- **Text:** Python's `str.split`, `strip`, `in`, `int()` and `str()` with their
  properties.
- **Bytes:** `to_bytes` and `from_bytes` big-endian, `struct`'s `<h`, and
  `&`, `|` and `^`.
- **Lis3dh, Settings, Telegram, Washing, WebSocket, ColorWheel, Push.**

## Model

| member | source | states |
|---|---|---|
| Lis3dh.WriteReg | src/i2c.py:16-20 | a value in 0..255 reaches the bus as one write and lands in that register; any other value raises ValueError with nothing sent and no register changed; no other register ever changes |
| Lis3dh.SelfCheck | lis3dh.py:85-88 | one read of WHO_AM_I and no write; it raises exactly when the answer is not 0x33 |
| Lis3dh.SetSensitivity | lis3dh.py:90-92 | writes INT1_THS and no other register; a value outside 0..255 raises ValueError before anything reaches the bus |
| Lis3dh.SetDuration | lis3dh.py:94-97 | writes INT1_DURATION and no other register; a value outside 0..255 raises ValueError with no access |
| Lis3dh.Init | lis3dh.py:37-88 | a wrong WHO_AM_I raises after the single identity read with no register written; otherwise the accesses are exactly the identity read, the eight writes with the values the code writes (0x80, 0x17, 0x88, 0x09, 0x40, 2, 5, 0x2A) and the reference read, and the registers end holding those values; INT1_SRC is never read |
| Lis3dh.InitOrdering | lis3dh.py:68-81 | the identity check precedes every write; threshold and duration are written before the reference read; enabling INT1_CFG is the last access and nothing earlier touches it |
| Lis3dh.AccelAddress | lis3dh.py:101 | the sample address `REG_X | 0x80` is 0xA8 |
| Lis3dh.GetAccel | lis3dh.py:99-102 | one six-byte block read at 0xA8; a buffer of any other length is a struct error; every axis lies in -32768..32767 |
| Lis3dh.AccelRoundTrip | lis3dh.py:102 | decoding is a bijection between six-byte buffers and signed 16-bit triples: decode after pack and pack after decode are identities |
| Bytes.Int16RoundTrip | lis3dh.py:102 | the little-endian signed 16-bit decoding inverts the encoding |
| Settings.LoadSettings | src/washing.py:44-56 | an unreadable, unparseable or empty settings file writes nothing; a non-empty object missing either key raises KeyError before any write; a loadable file writes the threshold and then the duration; only those two registers are ever written |
| Settings.SaveSettings | src/washing.py:58-62 | the file holds exactly the two keys with the given values, whatever they are; byte-sized values end in the threshold and duration registers with no other register changed; any other value makes the reload raise ValueError while the file keeps it; the reload reads the document just written |
| Settings.SaveThenLoad | src/washing.py:58-62 | saving byte-sized values leaves the sensor's threshold and duration holding exactly them, and reloading changes nothing further |
| Settings.OversizedValuePersists | src/washing.py:58-62 | a value above 255 is still saved and from then on every load of the file raises ValueError |
| Settings.LoadIdempotent | src/washing.py:44-56 | two loads without a save in between make the same writes, raise the same way and leave the same registers |
| Telegram.RequestOffset | src/telegram.py:23-40 | an offset is sent only when the cursor file opened and its first line is non-empty, and it is `int()` of that line; a non-numeric line raises ValueError; the older copy in telegram.py:23-35 has the same rule |
| Telegram.GetMessages | src/telegram.py:19-61 | a cursor line that is not a number raises ValueError before the request; a request that raises propagates its error with the cursor file untouched; the call succeeds exactly when the cursor parses and the request returns; no reply is returned as `{}` and leaves the cursor file alone; any other reply is returned unmodified; the file is rewritten exactly when the last result has a truthy `update_id` u, and then to `str(u + 1)`; the older copy in telegram.py:19-52 behaves the same |
| Telegram.CursorRoundTrip | src/telegram.py:38-57 | after a call that stored `u + 1`, the next call reads offset `u + 1` back and requests it, whatever the first reply was, and completes unless its own request raises (also telegram.py:33-48) |
| Telegram.LastNotLargest | src/telegram.py:51-57 | the cursor follows the last result, not the largest id: ids 10 then 5 store 6 |
| Telegram.OnlyLastResultMatters | src/telegram.py:51-53 | two replies with the same last result move the cursor identically |
| Text.ParsePrinted | src/telegram.py:57 | `int(str(i)) == i` for every integer, which the cursor round trip relies on |
| Washing.SetCommandRoundTrip | src/washing.py:77-82 | `/set a b` followed by anything that does not extend the second number parses back to `(a, b)`: the match is anchored at the start only |
| Washing.ParseSetCommand | src/washing.py:77-82 | only a text that starts with `/set ` is accepted; which texts it accepts, and with which values, is stated in both directions by Washing.ParseSetCommandMatches |
| Washing.ParseSetCommandMatches | src/washing.py:77-82 | the parser accepts a text with values `(s, d)` exactly when the text is `/set `, a digit run worth `s`, one space, a digit run worth `d`, then nothing or a non-digit: both directions of the anchored regular-expression match |
| Washing.ApplySetCommand | src/washing.py:58-62 | the settings file is written first, then only threshold and duration writes follow, with no network traffic; byte-sized values end in the sensor, larger ones raise ValueError |
| Washing.HandleReply | src/washing.py:72-83 | only the last result's text is inspected; a `/set` command there is saved; a last result without a message or text raises KeyError with no effect; no results, or any other text, does nothing |
| Washing.PollEffects | src/washing.py:67-69 | polling connects and requests updates; it sends no message and touches neither the sensor nor the settings file |
| Washing.Polled | src/washing.py:67-83 | the request precedes everything else, the cursor file is updated as the client rule says, a pending command is saved and loaded, and without one the settings and sensor are untouched |
| Washing.CheckNewParams | src/washing.py:67-83 | starts with the connection; a cursor line that is not a number raises ValueError before any request, while a missing cursor file requests without an offset; a request that raises ends the call right after it with nothing written; never sends a message or sleeps |
| Washing.SendNotification | src/washing.py:85-91 | completes exactly when the notification goes out, after connecting; it changes no state |
| Washing.LoadPhase | src/washing.py:44-56 | reloading settings is offline, writes only threshold and duration, and raises exactly as the loader does |
| Washing.Sleep | src/washing.py:101-107 | the LED goes off, then one deep sleep with the given timeout ends the boot; no network traffic and no change to the registers or files |
| Washing.SleepBeforeNotification | src/washing.py:93-94 | the same, with a timeout of 40 minutes, 2400000 ms |
| Washing.WaitForNextWake | src/washing.py:96-107 | arms ext0 on pin 17 for a high level, switches the LED off, then sleeps with no timeout |
| Washing.TimerBranch | src/washing.py:132-158 | completes exactly when the poll, the notification and the reload all do, and then its effects are poll, notification, reload, re-arm in that order; a failing poll ends the branch with exactly the poll's effects and world, and a failing notification ends it right after the notification attempt, so neither reloads nor arms |
| Washing.OtherBranch | src/washing.py:146-158 | no network traffic; the reload, then the re-arm unless the reload raised |
| Washing.WakeBranch | src/washing.py:132-158 | every branch either ends in one deep sleep right after the LED goes off or raises without sleeping or arming |
| Washing.Start | src/washing.py:124-158 | the wake reason is the first effect and is read exactly once; the boot ends in one deep sleep or raises |
| Washing.Boot | src/washing.py:161-163 | the constructor's identity read (src/washing.py:38-41) is the first effect; `start` runs, and the wake reason is read, exactly when the sensor is present; the boot ends in one deep sleep right after the LED goes off, or raises without sleeping or arming |
| Washing.BootRunsInit | src/washing.py:38-41 | a boot is the accelerometer's `init` followed, unless it raised, by `start` on the registers it left |
| Washing.MissingSensorStopsBoot | lis3dh.py:85-88 | a failed identity check ends the boot after the one read, before the wake reason is read |
| Washing.BootAfterInit | src/washing.py:161-163 | a boot with a present sensor is the initialisation accesses followed by `start`; those accesses neither sleep nor use the network |
| Washing.InitRegsAgree | lis3dh.py:41-81 | the register file after a successful boot-time `init` |
| Washing.TimerWakeSequence | src/washing.py:132-158 | a completed timer boot is: wake-reason read, poll (connect, getUpdates, …), notification, settings writes, ext0 arming on pin 17, LED off, deep sleep with no timeout |
| Washing.PinWakeSequence | src/washing.py:139-145 | a pin wake reads the wake reason, switches the LED off and sleeps for 2400000 ms; no network, no reload, no arming |
| Washing.OtherWakeSequence | src/washing.py:146-158 | any other wake makes no network call, reloads settings, then arms and sleeps with no timeout unless the reload raised |
| Washing.TimerFailureSkipsRearm | src/washing.py:132-138 | an exception from the poll or the notification ends `start`: the trace is the wake-reason read, the poll and, if the poll completed, the notification attempt, and the world is the one the poll left, so no reload, arming or sleep happens |
| Washing.AsWrittenTimerWakeNeverRearms | src/washing.py:85-88 | with the notification as written, every timer wake raises (AttributeError once the poll completes), sends no message and never arms or sleeps |
| Washing.WakeReasonReadOnce | src/washing.py:129 | a boot reads the wake reason exactly once when the sensor is present and never otherwise |
| Washing.SleepIsLast | src/washing.py:101-107 | a completed boot has exactly one deep sleep, as its last effect, right after the LED goes off, with no deep sleep of any timeout before it; a raised boot never sleeps or arms |
| Washing.OneSleepPerBoot | src/washing.py:101-107 | the two previous facts together |
| Washing.PollSavesCommand | src/washing.py:79-83 | a byte-sized `/set` in the last result is saved and the poll completes |
| Washing.StoredSettingsLoad | src/washing.py:44-56 | reloading a saved byte-sized file completes and leaves both values in the sensor |
| Washing.TimerBranchAppliesCommand | src/washing.py:132-158 | with a pending command and a sent notification, the timer branch saves and loads the values and ends re-armed |
| Washing.TimerWakeAppliesCommand | src/washing.py:124-158 | the same for the whole of `start` on a timer wake |
| Text.JoinSplit | batteryserver/ws_server.py:15 | splitting the request into lines loses nothing: joining the pieces gives it back |
| Text.PiecesAreFree | batteryserver/ws_server.py:15 | no header line contains the separator |
| WebSocket.EncodeFrame | batteryserver/ws_server.py:70-86 | first byte 0x81, mask bit clear; up to 125 bytes the length is the second byte, up to 65535 it is 126 plus two big-endian bytes, above that 127 plus eight; the payload follows unchanged, so the frame is n+2, n+4 or n+10 bytes; a length that does not fit in 8 bytes raises OverflowError |
| WebSocket.EncodeThenParse | batteryserver/ws_server.py:73-84 | every frame the server sends reads back, under the standard's layout, as the message it carries |
| Bytes.BigEndianRoundTrip | batteryserver/ws_server.py:79-82 | the extended length fields decode to the length that was encoded |
| WebSocket.Unmask | batteryserver/ws_server.py:63-65 | output byte i is payload byte i xor mask byte i mod 4, with the payload's length |
| WebSocket.UnmaskTwice | batteryserver/ws_server.py:63-65 | unmasking is its own inverse |
| WebSocket.ReceiveData | batteryserver/ws_server.py:39-67 | `None` exactly for an empty read; the length code is byte 0's low seven bits; 126, 127 and other codes select mask `[4:8]`/payload `[8:]`, `[10:14]`/`[14:]`, `[2:6]`/`[6:]`; the payload is never trimmed and the mask never runs short |
| WebSocket.ShortClientFrame | batteryserver/ws_server.py:48-67 | a masked client text frame of at most 125 bytes decodes to its payload |
| WebSocket.LongClientFrameMisread | batteryserver/ws_server.py:48-61 | a client frame of 126..65535 bytes decodes to two bytes more than was sent |
| WebSocket.ReceiveFrame | batteryserver/ws_server.py:48-61 | the decoder with the length code read from byte 1 |
| WebSocket.ClientFrameRoundTrip | batteryserver/ws_server.py:48-67 | with the code read from byte 1 every client frame, of any length, decodes to its payload |
| WebSocket.SecondField | batteryserver/ws_server.py:21 | `split(": ")[1]` is the text after the first `": "` up to the next one or the end of the line |
| WebSocket.SecondFieldShape | batteryserver/ws_server.py:21 | the line is the first piece, `": "`, the key, then nothing or another `": "` |
| WebSocket.LastKeyLine | batteryserver/ws_server.py:18-21 | the index found is of a line naming `Sec-WebSocket-Key` with no such line after it, and there is none exactly when no line names the key |
| WebSocket.ExtractKey | batteryserver/ws_server.py:15-21 | the forward scan raises IndexError exactly when some line naming the key has no `": "`; otherwise its key is the second field of the last line naming it, or `""` when none does |
| WebSocket.Handshake | batteryserver/ws_server.py:9-34 | the response is the 101 status and upgrade headers, then `Sec-WebSocket-Accept:` with the stripped base64 of SHA-1 of the key and the RFC 6455 GUID, ending in a blank line |
| ColorWheel.Wheel | src/rgbcycle.py:16-27 | every component is in 0..255, the three sum to 255 and at least one is 0; the battery server's copy (batteryserver/ws_server.py:171-182) is the same function |
| ColorWheel.WheelPeriodic | src/rgbcycle.py:18 | only the position modulo 255 matters, negative positions included |
| ColorWheel.WheelTurn | src/rgbcycle.py:18 | the colour 255 positions later is the same |
| ColorWheel.WheelSmooth | src/rgbcycle.py:20-27 | neighbouring positions differ by at most 3 per component, across segment boundaries and the 254→0 wrap too |
| ColorWheel.WheelInjective | src/rgbcycle.py:20-27 | the 255 positions of a turn show 255 different colours |
| ColorWheel.NextIndex | src/rgbcycle.py:49-53 | the step agrees with adding one modulo 255 and keeps an index in 0..254 |
| ColorWheel.IndexAfterIsMod | src/rgbcycle.py:35-53 | after n frames from 0 the index is n mod 255, so it stays in 0..254 and frame n shows wheel position n |
| ColorWheel.ColourBurst | batteryserver/ws_server.py:132-143 | the 66 colours shown between battery reports are consecutive wheel positions, and an index within 0..254 stays there |
| Push.HashMap | push.py:45 | the board's map has exactly the listed names |
| Push.LastPairWins | push.py:45 | with duplicate names the map holds the hash of the last pair |
| Push.Decide | push.py:49-53 | a file is copied exactly when the board lacks it or holds another hash; otherwise the hashes match |
| Push.PyFiles | push.py:46-47 | the considered names are exactly the local names ending in `.py`, and there are no more of them than local names |
| Push.PyFilesInOrder | push.py:46-47 | the considered names are a subsequence of the local listing: they keep its order |
| Push.Command | push.py:51 | a copy runs `cp`, then the path made of `src/` directly followed by the name, then the board's current directory `:` |
| Push.Plan | push.py:46-53 | one action per considered file, in listing order |
| Push.CopyPlan | push.py:46-53 | the loop makes those actions, each about a local `.py` file |
| Push.CopiedIffNeeded | push.py:47-51 | a name is copied exactly when it is a local `.py` file that the board lacks or holds with a different hash |
| Push.MatchingNotCopied | push.py:52-53 | a file whose hash matches is never copied |
| Push.DeviceOnlyUntouched | push.py:46-53 | files present only on the board appear in no action |

## Left out

- Wi-Fi association (`do_connect`) is reduced to a `Connect` effect, because its loop waits on the radio without bound.
- The chat service HTTP calls are represented by inputs. `getUpdates` is a function from the offset to a reply or to the error the request raised. `sendMessage` is the `SendMessage` effect, and its failure is one of the notification outcomes.
- The notification's battery reading is an abstract `NotifyOutcome`. `send_notification` calls `self.get_battery_percentage`, which the class does not define. The code as written therefore ends every timer wake whose poll completes with AttributeError, before sending; a poll that raises ends the wake earlier with its own error. The constant `NOTIFY_AS_WRITTEN` fixes that outcome, and `Washing.AsWrittenTimerWakeNeverRearms` proves that such a boot never re-arms. The battery module's floating-point arithmetic and the `%.2f` message text are not modelled.
- LED blinking, the NeoPixel, `time.sleep` and the 30-second countdown of the other-wake branch are not modelled. They have no effect on the logic, apart from the LED switching off before sleep, which is modelled.
- `print_accel` and every `print` are not modelled.
- Settings.LoadSettings: JSON booleans are read as the integers 0 and 1, as Python's `bytes([True])` reads them. Any other non-integer value gives TypeError. The structure of `json.load` beyond these cases is abstracted to the `Document` datatype.
- Lis3dh.GetAccel returns the decoded triple. The source's `get_accel` only prints it and returns None, so the value returned stands for what the method reads.
- Lis3dh.SelfCheck raises a generic `Exception`, modelled as `SensorNotFound`.
- `machine.I2C` is modelled as the access log plus a register map. `read_reg` answers are inputs only for WHO_AM_I; the reference-register value is discarded by the code.
- `receive_data` ignores the socket's 1024-byte read limit and any bytes that arrive later.
- `receive_data` and `send_data` treat UTF-8 decoding and encoding as the identity on bytes. An invalid UTF-8 payload, which would raise, is not modelled.
- All of this code, the battery server included, runs under MicroPython on the board. The model assumes CPython 3's semantics for the built-ins it uses. The places where the two interpreters can differ are listed below, one per member.
- WebSocket.EncodeFrame: the OverflowError for a length that does not fit in eight bytes is the behaviour of CPython's `int.to_bytes(n, byteorder='big')`. MicroPython's `to_bytes` may not accept `byteorder` as a keyword, and it may not check for overflow the same way.
- Lis3dh.SetSensitivity: a value outside 0..255 raises ValueError, as CPython's `bytes([v])` in src/i2c.py:20 does. MicroPython raises OverflowError instead for a value that does not fit a machine word, and the model does not separate that case.
- Lis3dh.WriteReg: the same ValueError label as Lis3dh.SetSensitivity, with the same MicroPython difference.
- Lis3dh.SetDuration: the same ValueError label as Lis3dh.SetSensitivity, with the same MicroPython difference.
- Settings.SaveSettings, Settings.OversizedValuePersists and Washing.ApplySetCommand: the ValueError of an out-of-range value comes from the same `bytes([v])`. Under MicroPython a value beyond a machine word raises OverflowError instead.
- Lis3dh.GetAccel: a buffer of any length other than six is a struct error, as CPython's `struct.unpack` reports it. MicroPython raises ValueError for a short buffer and accepts a longer one. The bus read asks for exactly six bytes.
- Washing.ParseSetCommand: its own contract states only that an accepted text starts with `/set `. The full characterisation of the regular-expression match is the separate lemma Washing.ParseSetCommandMatches, so that the parser's callers do not carry it.
- `receive_data` computes an extended `payload_length` but never uses it. Under CPython's `int.from_bytes` that computation cannot raise, so it is not modelled.
- WebSocket.ReceiveFrame: a read shorter than two bytes gives `None`, where indexing byte 1 in Python would raise IndexError.
- SHA-1 and base64 in the handshake are function parameters, and SHA-256 file hashing in the deploy script is a parameter too. Push.Plan takes the local hash as a function of the file name, so file contents are not modelled.
- The deploy script's serial link, raw REPL, `file_hashes` listing transfer and soft reset are not modelled. The board listing is an input.
- The battery server's accept loop, socket I/O and battery message formatting are not modelled. Only the colour burst between reports is modelled.
- Text.ParseInt follows `int()` for ASCII whitespace, an optional sign and ASCII digits. Underscores and non-ASCII digits are not modelled.
- `src/battery.py`, `src/httptest.py`, the root `washing.py` and `src/i2c.py` (other than its one-byte packing check) are not part of this model.

## Findings

| source | as written | input that shows it | evidently intended | confidence | as-written member | corrected member |
|---|---|---|---|---|---|---|
| batteryserver/ws_server.py:48-49 | the length code is read from byte 0 (`data[0] & 127`), which holds FIN and the opcode, so a text frame always gives code 1; the server never calls `receive_data`, so the bug is latent in the shipped server | any masked client text frame with a 126-byte payload: byte 0 is 0x81, the mask is taken from the two extended-length bytes and the first two mask bytes, and 128 bytes come back | read the code from byte 1, as section 5.2 of RFC 6455 places it | not executed | WebSocket.LongClientFrameMisread | WebSocket.ClientFrameRoundTrip |

=== FILE: bytes.dfy ===
/** Byte-level arithmetic: Python's `int.to_bytes` / `int.from_bytes` in big-endian
    order, the little-endian signed 16-bit fields of `struct.unpack('<h')`, and
    the bitwise operators the firmware applies to single bytes. */
module Bytes {
  import opened Common

  function Pow256(k: nat): (p: nat)
    ensures p >= 1
  {
    if k == 0 then 1 else 256 * Pow256(k - 1)
  }

  /** `n.to_bytes(k, byteorder='big')`, defined when `n` fits in `k` bytes. */
  function ToBigEndian(n: nat, k: nat): (s: seq<Byte>)
    requires n < Pow256(k)
    ensures |s| == k
  {
    if k == 0 then []
    else
      assert n / 256 < Pow256(k - 1);
      ToBigEndian(n / 256, k - 1) + [n % 256]
  }

  /** `int.from_bytes(s, byteorder='big')`. */
  function FromBigEndian(s: seq<Byte>): (n: nat)
    ensures n < Pow256(|s|)
  {
    if |s| == 0 then 0
    else
      var high := FromBigEndian(s[..|s| - 1]);
      assert high * 256 + s[|s| - 1] < Pow256(|s| - 1) * 256;
      high * 256 + s[|s| - 1]
  }

  /** Decoding what was encoded gives the number back. */
  lemma {:induction false} BigEndianRoundTrip(n: nat, k: nat)
    requires n < Pow256(k)
    ensures FromBigEndian(ToBigEndian(n, k)) == n
  {
    if k > 0 {
      var s := ToBigEndian(n, k);
      BigEndianRoundTrip(n / 256, k - 1);
      assert s[..k - 1] == ToBigEndian(n / 256, k - 1);
    }
  }

  /** Encoding what was decoded gives the bytes back. */
  lemma {:induction false} BigEndianInverse(s: seq<Byte>)
    ensures ToBigEndian(FromBigEndian(s), |s|) == s
  {
    if |s| > 0 {
      var init := s[..|s| - 1];
      var n := FromBigEndian(s);
      BigEndianInverse(init);
      assert n / 256 == FromBigEndian(init);
      assert n % 256 == s[|s| - 1];
      assert s == init + [s[|s| - 1]];
    }
  }

  /** One field of `struct.unpack('<h', ...)`: a little-endian two's-complement
      16-bit integer. */
  function Int16FromLittleEndian(lo: Byte, hi: Byte): (v: int)
    ensures -32768 <= v <= 32767
  {
    var u := lo + 256 * hi;
    if u >= 32768 then u - 65536 else u
  }

  /** `struct.pack('<h', v)`. */
  function Int16ToLittleEndian(v: int): (s: seq<Byte>)
    requires -32768 <= v <= 32767
    ensures |s| == 2
  {
    var u := if v < 0 then v + 65536 else v;
    [u % 256, u / 256]
  }

  lemma Int16RoundTrip(v: int)
    requires -32768 <= v <= 32767
    ensures var s := Int16ToLittleEndian(v); Int16FromLittleEndian(s[0], s[1]) == v
  {
  }

  lemma Int16Inverse(lo: Byte, hi: Byte)
    ensures Int16ToLittleEndian(Int16FromLittleEndian(lo, hi)) == [lo, hi]
  {
  }

  function Pow2(k: nat): (p: nat)
    ensures p >= 1
  {
    if k == 0 then 1 else 2 * Pow2(k - 1)
  }

  datatype BitOp = AndOp | OrOp | XorOp

  function BitOf(op: BitOp, x: nat, y: nat): nat
    requires x < 2 && y < 2
  {
    match op
    case AndOp => x * y
    case OrOp => if x + y > 0 then 1 else 0
    case XorOp => (x + y) % 2
  }

  /** Python's `a & b`, `a | b` and `a ^ b` on non-negative integers, bit by bit
      from the least significant end. */
  function Bitwise(op: BitOp, a: nat, b: nat): nat
    decreases a + b
  {
    if a == 0 && b == 0 then 0
    else BitOf(op, a % 2, b % 2) + 2 * Bitwise(op, a / 2, b / 2)
  }

  /** Bitwise operators keep values within `k` bits. */
  lemma {:induction false} BitwiseBound(op: BitOp, a: nat, b: nat, k: nat)
    requires a < Pow2(k) && b < Pow2(k)
    ensures Bitwise(op, a, b) < Pow2(k)
    decreases a + b
  {
    if a != 0 || b != 0 {
      assert k > 0;
      BitwiseBound(op, a / 2, b / 2, k - 1);
    }
  }

  /** `a ^ b` on two bytes; the result is again a byte. */
  function Xor(a: Byte, b: Byte): Byte {
    BitwiseBound(XorOp, a, b, 8);
    Bitwise(XorOp, a, b)
  }

  /** The defining step of `Bitwise`, which also holds at zero. */
  lemma BitwiseStep(op: BitOp, a: nat, b: nat)
    ensures Bitwise(op, a, b) == BitOf(op, a % 2, b % 2) + 2 * Bitwise(op, a / 2, b / 2)
  {
  }

  lemma XorBit(x: nat, y: nat)
    requires x < 2 && y < 2
    ensures ((x + y) % 2 + y) % 2 == x
  {
  }

  /** Xor with the same value twice is the identity. */
  lemma {:induction false} XorTwice(a: nat, b: nat)
    ensures Bitwise(XorOp, Bitwise(XorOp, a, b), b) == a
    decreases a + b
  {
    if a != 0 || b != 0 {
      var c := Bitwise(XorOp, a, b);
      BitwiseStep(XorOp, a, b);
      var rest := Bitwise(XorOp, a / 2, b / 2);
      assert c % 2 == (a % 2 + b % 2) % 2 && c / 2 == rest;
      XorTwice(a / 2, b / 2);
      BitwiseStep(XorOp, c, b);
      XorBit(a % 2, b % 2);
      assert BitOf(XorOp, c % 2, b % 2) == a % 2;
      assert Bitwise(XorOp, c / 2, b / 2) == a / 2;
    } else {
      assert Bitwise(XorOp, 0, 0) == 0;
    }
  }

  lemma {:induction false} AndZero(a: nat)
    ensures Bitwise(AndOp, a, 0) == 0
    decreases a
  {
    if a != 0 {
      AndZero(a / 2);
    }
  }

  lemma MulStep(d: int, x: int, y: int)
    requires d > 0 && x < y
    ensures d * x + d <= d * y
  {
    var k := y - x - 1;
    assert k >= 0;
    assert d * y == d * x + d + d * k;
    assert d * k >= 0;
  }

  lemma ModUnique(a: int, d: int, t: int, r: int)
    requires d > 0 && a == d * t + r && 0 <= r < d
    ensures a % d == r
  {
    var t' := a / d;
    var r' := a % d;
    assert a == d * t' + r' && 0 <= r' < d;
    if t' > t {
      MulStep(d, t, t');
    } else if t' < t {
      MulStep(d, t', t);
    }
  }

  lemma HalfMod(a: nat, p: nat)
    requires p >= 1
    ensures a % 2 + 2 * ((a / 2) % p) == a % (2 * p)
  {
    var q := a / 2;
    var t := q / p;
    var u := q % p;
    assert q == p * t + u;
    assert a == 2 * (p * t + u) + a % 2;
    assert a == (2 * p) * t + (2 * u + a % 2);
    ModUnique(a, 2 * p, t, 2 * u + a % 2);
  }

  /** Masking with `2^k - 1` keeps the low `k` bits: `a & (2^k - 1) == a % 2^k`. */
  lemma {:induction false} LowMask(a: nat, k: nat)
    ensures Bitwise(AndOp, a, Pow2(k) - 1) == a % Pow2(k)
    decreases k
  {
    if k == 0 {
      AndZero(a);
    } else {
      var m := Pow2(k) - 1;
      assert m % 2 == 1 && m / 2 == Pow2(k - 1) - 1;
      LowMask(a / 2, k - 1);
      HalfMod(a, Pow2(k - 1));
      if a == 0 {
        assert Bitwise(AndOp, a, m) == a % 2 + 2 * Bitwise(AndOp, a / 2, m / 2);
      }
    }
  }

  /** Setting a bit above every set bit of `a` adds it: `a | 2^k == a + 2^k`. */
  lemma {:induction false} HighBit(a: nat, k: nat)
    requires a < Pow2(k)
    ensures Bitwise(OrOp, a, Pow2(k)) == a + Pow2(k)
    decreases k
  {
    if k == 0 {
      assert Bitwise(OrOp, 0, 0) == 0;
    } else {
      HighBit(a / 2, k - 1);
    }
  }

  /** The length code of a WebSocket header byte, `b & 127`. */
  lemma LowSevenBits(b: nat)
    ensures Bitwise(AndOp, b, 127) == b % 128
  {
    LowMask(b, 7);
  }

  /** Setting the top bit of a byte below 128, `b | 0x80`. */
  lemma TopBit(b: nat)
    requires b < 128
    ensures Bitwise(OrOp, b, 128) == b + 128
  {
    HighBit(b, 7);
  }
}

=== FILE: colorwheel.dfy ===
/** The NeoPixel rainbow: `rgb_color_wheel`, which maps a wheel position to a
    colour, and the step that advances the colour index between frames. The
    LED writes and the frame delay are not modelled. */
module ColorWheel {
  /** One colour as the wheel returns it. */
  datatype Rgb = Rgb(red: int, green: int, blue: int)

  /** Positions per turn of the wheel; the index wraps back to 0 when it reaches this. */
  const TURN: nat := 255
  /** Length of each of the three segments of the wheel. */
  const SEGMENT: nat := 85

  predicate IsComponent(c: int) {
    0 <= c <= 255
  }

  /** The red-green-blue colour at `position`. Python's `%` with a positive
      divisor never goes negative, like Dafny's. Each segment fades one primary
      out and the next one in, three steps at a time, so one component is always
      off and the other two add up to full brightness. */
  function Wheel(position: int): (c: Rgb)
    ensures IsComponent(c.red) && IsComponent(c.green) && IsComponent(c.blue)
    ensures c.red + c.green + c.blue == 255
    ensures c.red == 0 || c.green == 0 || c.blue == 0
  {
    var p := position % TURN;
    if p < SEGMENT then Rgb(255 - p * 3, 0, p * 3)
    else if p < 2 * SEGMENT then
      var q := p - SEGMENT;
      Rgb(0, q * 3, 255 - q * 3)
    else
      var q := p - 2 * SEGMENT;
      Rgb(q * 3, 255 - q * 3, 0)
  }

  /** Only the position modulo 255 matters, for negative positions too. */
  lemma WheelPeriodic(p: int, q: int)
    requires p % TURN == q % TURN
    ensures Wheel(p) == Wheel(q)
  {
  }

  /** A full turn later the wheel shows the same colour. */
  lemma WheelTurn(p: int)
    ensures Wheel(p + TURN) == Wheel(p)
  {
    assert (p + TURN) % TURN == p % TURN;
    WheelPeriodic(p + TURN, p);
  }

  function Distance(a: int, b: int): nat {
    if a <= b then b - a else a - b
  }

  /** Neighbouring positions differ by at most 3 in each component, including
      across the segment boundaries and where the wheel wraps from 254 to 0. */
  lemma WheelSmooth(p: int)
    ensures Distance(Wheel(p).red, Wheel(p + 1).red) <= 3
    ensures Distance(Wheel(p).green, Wheel(p + 1).green) <= 3
    ensures Distance(Wheel(p).blue, Wheel(p + 1).blue) <= 3
  {
    var i := p % TURN;
    if i < TURN - 1 {
      assert (p + 1) % TURN == i + 1;
    } else {
      assert (p + 1) % TURN == 0;
    }
  }

  /** Different positions within one turn show different colours, so a turn
      passes through 255 distinct colours. */
  lemma WheelInjective(p: int, q: int)
    requires 0 <= p < TURN && 0 <= q < TURN
    requires Wheel(p) == Wheel(q)
    ensures p == q
  {
    assert p % TURN == p && q % TURN == q;
  }

  /** The main loop's index step: add one, and start over at 0 on reaching 255.
      The step agrees with adding one modulo 255, so it never changes which
      colour comes next. */
  function NextIndex(index: int): (next: int)
    ensures next % TURN == (index + 1) % TURN
    ensures 0 <= index < TURN ==> 0 <= next < TURN
  {
    var next := index + 1;
    if next == TURN then 0 else next
  }

  lemma ModStep(a: int, b: int)
    requires a % TURN == b % TURN
    ensures (a + 1) % TURN == (b + 1) % TURN
  {
  }

  lemma SmallMod(x: int)
    requires 0 <= x < TURN
    ensures x % TURN == x
  {
  }

  /** The colour index after `n` frames of the rainbow loop, which starts at 0. */
  function IndexAfter(n: nat): int {
    if n == 0 then 0 else NextIndex(IndexAfter(n - 1))
  }

  /** The index after `n` frames is `n mod 255`: it stays in 0..254 forever and
      frame `n` shows the colour at wheel position `n`. */
  lemma {:induction false} IndexAfterIsMod(n: nat)
    ensures IndexAfter(n) == n % TURN
    ensures 0 <= IndexAfter(n) < TURN
    ensures Wheel(IndexAfter(n)) == Wheel(n)
  {
    if n > 0 {
      var before := IndexAfter(n - 1);
      IndexAfterIsMod(n - 1);
      SmallMod(before);
      ModStep(before, n - 1);
      assert IndexAfter(n) % TURN == n % TURN;
      SmallMod(IndexAfter(n));
    }
  }

  /** The frames the battery server shows between two battery reports: 66
      colours, from the current index onwards, and the index afterwards. An index
      that starts within one turn stays within it. */
  method ColourBurst(start: int) returns (colours: seq<Rgb>, index: int)
    ensures |colours| == 66
    ensures forall k :: 0 <= k < 66 ==> colours[k] == Wheel(start + k)
    ensures Wheel(index) == Wheel(start + 66)
    ensures 0 <= start < TURN ==> 0 <= index < TURN && index == (start + 66) % TURN
  {
    colours := [];
    index := start;
    var k := 0;
    while k < 66
      invariant 0 <= k <= 66
      invariant |colours| == k
      invariant forall j :: 0 <= j < k ==> colours[j] == Wheel(start + j)
      invariant index % TURN == (start + k) % TURN
      invariant 0 <= start < TURN ==> 0 <= index < TURN
    {
      WheelPeriodic(index, start + k);
      colours := colours + [Wheel(index)];
      ModStep(index, start + k);
      index := NextIndex(index);
      k := k + 1;
    }
    WheelPeriodic(index, start + 66);
    if 0 <= start < TURN {
      assert index % TURN == index;
    }
  }
}

=== FILE: common.dfy ===
/** Types shared by every part of the firmware model. */
module Common {

  /** One byte, the element type of Python's `bytes` and `bytearray`. */
  type Byte = b: int | 0 <= b < 256

  datatype Option<+T> = None | Some(value: T)

  /** The exceptions the modelled code can raise. Nothing in the firmware catches
      them once they leave a helper, so a raised error ends the boot. */
  datatype Error =
    | ValueError       // bytes([v]) with v outside 0..255, int() of a non-number
    | KeyError         // a missing dictionary key
    | IndexError       // a list index past the end
    | TypeError        // indexing or packing a value of the wrong type
    | OverflowError    // int.to_bytes with too few bytes
    | StructError      // struct.unpack on a buffer of the wrong size
    | SensorNotFound   // the accelerometer's identity check failed
    | AttributeError   // a method lookup that fails
    | NetworkError     // a failed request to the chat service

  datatype Result<+T> = Ok(value: T) | Err(error: Error)
}

=== FILE: lis3dh.dfy ===
/** The LIS3DH accelerometer driver: the identity check, the fixed register
    configuration written at start-up, the interrupt threshold and duration
    setters, and the decoding of one acceleration sample. The I2C bus is an
    abstract log of register accesses plus the register file as last written. */
module Lis3dh {
  import opened Common
  import opened Bytes

  const WHO_AM_I: int := 0x0F
  const WHO_AM_I_ID: int := 0x33

  const CTRL_REG1: int := 0x20        // data rate and axis enable
  const CTRL_REG2: int := 0x21        // high-pass filter selection
  const CTRL_REG3: int := 0x22        // interrupt routing
  const CTRL_REG4: int := 0x23        // block data update, scale, resolution
  const CTRL_REG5: int := 0x24        // FIFO enable and interrupt latching
  const HP_FILTER_RESET: int := 0x26  // the REFERENCE register: reading it re-baselines the filter
  const REG_X: int := 0x28
  const INT1_CFG: int := 0x30
  const INT1_SRC: int := 0x31         // the latch status register
  const INT1_THS: int := 0x32         // threshold, in 16 mg steps
  const INT1_DURATION: int := 0x33    // samples above threshold before the interrupt fires

  /** The register-address bit that makes a multi-byte read auto-increment. */
  const AUTO_INCREMENT: int := 0x80

  /** The values the start-up sequence writes, as the code writes them. */
  const CTRL_REG5_VALUE: Byte := 0x80
  const CTRL_REG1_VALUE: Byte := 0x17
  const CTRL_REG4_VALUE: Byte := 0x88
  const CTRL_REG2_VALUE: Byte := 0x09
  const CTRL_REG3_VALUE: Byte := 0x40
  const DEFAULT_THRESHOLD: Byte := 2
  const DEFAULT_DURATION: Byte := 5
  const INT1_CFG_VALUE: Byte := 0x2A

  /** One bus transaction with the sensor. */
  datatype Access =
    | Read(reg: int)
    | Write(reg: int, value: Byte)
    | ReadBlock(addr: int, count: nat)

  /** The accesses a driver call made, the register file after it, and the
      exception it raised, if any. */
  datatype Run = Run(log: seq<Access>, regs: map<int, Byte>, raised: Option<Error>)

  /** `first` followed by `next`, unless `first` raised; `next` is computed from
      the registers `first` left behind. */
  function Then(first: Run, next: Run): Run {
    if first.raised.Some? then first else Run(first.log + next.log, next.regs, next.raised)
  }

  /** `write_reg`: packing the value with `bytes([data])` raises ValueError,
      before anything reaches the bus, unless the value fits in a byte. */
  function WriteReg(regs: map<int, Byte>, reg: int, data: int): (r: Run)
    ensures r.raised.None? <==> 0 <= data < 256
    // a byte reaches the bus as one write and lands in `reg`
    ensures r.raised.None? ==> r.log == [Write(reg, data)] && reg in r.regs && r.regs[reg] == data
    // anything else raises with nothing sent and nothing changed
    ensures r.raised.Some? ==> r.log == [] && r.regs == regs && r.raised == Some(ValueError)
    ensures OthersUnchanged(regs, r.regs, reg)
  {
    if 0 <= data < 256 then Run([Write(reg, data)], regs[reg := data], None)
    else Run([], regs, Some(ValueError))
  }

  /** Every register other than `reg` has the same presence and value in both maps. */
  ghost predicate OthersUnchanged(before: map<int, Byte>, after: map<int, Byte>, reg: int) {
    forall k :: k != reg ==> (k in after <==> k in before) && (k in before ==> after[k] == before[k])
  }

  /** `set_sensitivity`: writes register INT1_THS and nothing else. */
  function SetSensitivity(regs: map<int, Byte>, threshold: int): (r: Run)
    ensures r.raised.None? <==> 0 <= threshold < 256
    ensures r.raised.None? ==> r.log == [Write(INT1_THS, threshold)] && INT1_THS in r.regs && r.regs[INT1_THS] == threshold
    ensures r.raised.Some? ==> r.log == [] && r.regs == regs && r.raised == Some(ValueError)
    ensures OthersUnchanged(regs, r.regs, INT1_THS)
  {
    WriteReg(regs, INT1_THS, threshold)
  }

  /** `set_duration`: writes register INT1_DURATION and nothing else. */
  function SetDuration(regs: map<int, Byte>, duration: int): (r: Run)
    ensures r.raised.None? <==> 0 <= duration < 256
    ensures r.raised.None? ==> r.log == [Write(INT1_DURATION, duration)] && INT1_DURATION in r.regs && r.regs[INT1_DURATION] == duration
    ensures r.raised.Some? ==> r.log == [] && r.regs == regs && r.raised == Some(ValueError)
    ensures OthersUnchanged(regs, r.regs, INT1_DURATION)
  {
    WriteReg(regs, INT1_DURATION, duration)
  }

  /** `self_check`: reads WHO_AM_I; `whoAmI` is the device's answer. */
  function SelfCheck(whoAmI: int, regs: map<int, Byte>): (r: Run)
    // one read of WHO_AM_I and no write
    ensures r.log == [Read(WHO_AM_I)] && r.regs == regs
    // it raises exactly when the answer is not the LIS3DH's identity, 0x33
    ensures r.raised.None? <==> whoAmI == 0x33
    ensures r.raised.Some? ==> r.raised == Some(SensorNotFound)
  {
    Run([Read(WHO_AM_I)], regs, if whoAmI == WHO_AM_I_ID then None else Some(SensorNotFound))
  }

  /** The accesses of a successful `init`, in order. */
  const INIT_LOG: seq<Access> := [
    Read(WHO_AM_I),
    Write(CTRL_REG5, CTRL_REG5_VALUE),
    Write(CTRL_REG1, CTRL_REG1_VALUE),
    Write(CTRL_REG4, CTRL_REG4_VALUE),
    Write(CTRL_REG2, CTRL_REG2_VALUE),
    Write(CTRL_REG3, CTRL_REG3_VALUE),
    Write(INT1_THS, DEFAULT_THRESHOLD),
    Write(INT1_DURATION, DEFAULT_DURATION),
    Read(HP_FILTER_RESET),
    Write(INT1_CFG, INT1_CFG_VALUE)
  ]

  /** `init`: the identity check, then the configuration writes. */
  function Init(whoAmI: int, regs: map<int, Byte>): (r: Run)
    ensures r.raised.Some? <==> whoAmI != WHO_AM_I_ID
    ensures whoAmI != WHO_AM_I_ID ==>
      r.raised == Some(SensorNotFound) && r.log == [Read(WHO_AM_I)] && r.regs == regs
    ensures whoAmI == WHO_AM_I_ID ==> r.log == INIT_LOG
    ensures whoAmI == WHO_AM_I_ID ==>
      && INT1_THS in r.regs && r.regs[INT1_THS] == DEFAULT_THRESHOLD
      && INT1_DURATION in r.regs && r.regs[INT1_DURATION] == DEFAULT_DURATION
      && INT1_CFG in r.regs && r.regs[INT1_CFG] == INT1_CFG_VALUE
      && CTRL_REG1 in r.regs && r.regs[CTRL_REG1] == CTRL_REG1_VALUE
      && CTRL_REG2 in r.regs && r.regs[CTRL_REG2] == CTRL_REG2_VALUE
      && CTRL_REG3 in r.regs && r.regs[CTRL_REG3] == CTRL_REG3_VALUE
      && CTRL_REG4 in r.regs && r.regs[CTRL_REG4] == CTRL_REG4_VALUE
      && CTRL_REG5 in r.regs && r.regs[CTRL_REG5] == CTRL_REG5_VALUE
    ensures Read(INT1_SRC) !in r.log
  {
    var check := SelfCheck(whoAmI, regs);
    var r1 := Then(check, WriteReg(check.regs, CTRL_REG5, CTRL_REG5_VALUE));
    var r2 := Then(r1, WriteReg(r1.regs, CTRL_REG1, CTRL_REG1_VALUE));
    var r3 := Then(r2, WriteReg(r2.regs, CTRL_REG4, CTRL_REG4_VALUE));
    var r4 := Then(r3, WriteReg(r3.regs, CTRL_REG2, CTRL_REG2_VALUE));
    var r5 := Then(r4, WriteReg(r4.regs, CTRL_REG3, CTRL_REG3_VALUE));
    var r6 := Then(r5, SetSensitivity(r5.regs, DEFAULT_THRESHOLD));
    var r7 := Then(r6, SetDuration(r6.regs, DEFAULT_DURATION));
    var r8 := Then(r7, Run([Read(HP_FILTER_RESET)], r7.regs, None));
    Then(r8, WriteReg(r8.regs, INT1_CFG, INT1_CFG_VALUE))
  }

  /** Position of an access in a log. */
  ghost predicate At(log: seq<Access>, i: int, a: Access) {
    0 <= i < |log| && log[i] == a
  }

  /** In a successful `init` nothing is written before the identity check, the
      reference register is read after the threshold and duration are set and
      before the interrupt is enabled, and enabling it is the last access. */
  lemma InitOrdering(regs: map<int, Byte>)
    ensures var log := Init(WHO_AM_I_ID, regs).log;
      && At(log, 0, Read(WHO_AM_I))
      && (forall i :: 0 <= i < |log| && log[i].Write? ==> i > 0)
      && At(log, 6, Write(INT1_THS, DEFAULT_THRESHOLD))
      && At(log, 7, Write(INT1_DURATION, DEFAULT_DURATION))
      && At(log, 8, Read(HP_FILTER_RESET))
      && At(log, |log| - 1, Write(INT1_CFG, INT1_CFG_VALUE))
      && (forall i :: 0 <= i < |log| - 1 ==> log[i].reg != INT1_CFG)
  {
  }

  /** The address of the six-byte acceleration read, `REG_X | 0x80`. */
  function AccelAddress(): (addr: int)
    ensures addr == 0xA8
  {
    TopBit(REG_X);
    Bitwise(OrOp, REG_X, AUTO_INCREMENT)
  }

  datatype Accel = Accel(x: int, y: int, z: int)

  predicate IsInt16(v: int) {
    -32768 <= v <= 32767
  }

  /** `get_accel`: one six-byte read starting at X_L with auto-increment, decoded as
      three little-endian signed 16-bit values; `data` is what the bus returned. */
  function GetAccel(data: seq<Byte>): (r: (seq<Access>, Result<Accel>))
    ensures r.0 == [ReadBlock(0xA8, 6)]
    ensures r.1.Ok? <==> |data| == 6
    ensures r.1.Err? ==> r.1.error == StructError
    ensures r.1.Ok? ==> IsInt16(r.1.value.x) && IsInt16(r.1.value.y) && IsInt16(r.1.value.z)
  {
    var log := [ReadBlock(AccelAddress(), 6)];
    if |data| != 6 then (log, Err(StructError))
    else
      (log, Ok(Accel(
        Int16FromLittleEndian(data[0], data[1]),
        Int16FromLittleEndian(data[2], data[3]),
        Int16FromLittleEndian(data[4], data[5]))))
  }

  /** `struct.pack('<hhh', x, y, z)`, the inverse of the decoding. */
  function PackAccel(a: Accel): (s: seq<Byte>)
    requires IsInt16(a.x) && IsInt16(a.y) && IsInt16(a.z)
    ensures |s| == 6
  {
    Int16ToLittleEndian(a.x) + Int16ToLittleEndian(a.y) + Int16ToLittleEndian(a.z)
  }

  /** Decoding a packed sample gives the sample back, and packing a decoded
      buffer gives the buffer back. */
  lemma AccelRoundTrip(a: Accel, data: seq<Byte>)
    requires IsInt16(a.x) && IsInt16(a.y) && IsInt16(a.z)
    ensures GetAccel(PackAccel(a)).1 == Ok(a)
    ensures |data| == 6 ==> PackAccel(GetAccel(data).1.value) == data
  {
    Int16RoundTrip(a.x);
    Int16RoundTrip(a.y);
    Int16RoundTrip(a.z);
    if |data| == 6 {
      var a := GetAccel(data).1.value;
      assert a.x == Int16FromLittleEndian(data[0], data[1]);
      assert a.y == Int16FromLittleEndian(data[2], data[3]);
      assert a.z == Int16FromLittleEndian(data[4], data[5]);
      Int16Inverse(data[0], data[1]);
      Int16Inverse(data[2], data[3]);
      Int16Inverse(data[4], data[5]);
      assert PackAccel(a) == [data[0], data[1]] + [data[2], data[3]] + [data[4], data[5]];
      SixBytes(data);
    }
  }

  lemma SixBytes(data: seq<Byte>)
    requires |data| == 6
    ensures data == [data[0], data[1]] + [data[2], data[3]] + [data[4], data[5]]
  {
  }
}

=== FILE: push.dfy ===
/** The deploy script's copy rule: which files of the local source directory are
    copied onto the board. The board reports a `(name, hash)` pair per file; a
    local Python file is copied when the board lacks it or holds a different
    hash. Hashes are opaque strings and the local hash function is a parameter;
    the serial link and the copy itself are not modelled. */
module Push {
  import opened Text

  const SOURCE_DIR := "src"
  const SUFFIX := ".py"
  /** The copy destination: the board's current directory. */
  const DEST := ":"

  /** What the script does with one local Python file: copy it, or report that
      the hashes match. */
  datatype Action = Copy(name: string) | Keep(name: string, hash: string)

  /** The command run for a copy: `cp src/<name> :`. */
  function Command(name: string): (cmd: seq<string>)
    ensures |cmd| == 3 && cmd[0] == "cp" && cmd[2] == DEST
    ensures EndsWith(cmd[1], name) && StartsWith(cmd[1], SOURCE_DIR + "/")
    // nothing between the directory and the name
    ensures |cmd[1]| == |SOURCE_DIR| + 1 + |name|
  {
    var path := SOURCE_DIR + "/" + name;
    assert path[|path| - |name|..] == name;
    assert path[..|SOURCE_DIR + "/"|] == SOURCE_DIR + "/";
    ["cp", path, DEST]
  }

  /** The board's name-to-hash map, built from its listing in order, so a later
      pair for the same name overwrites an earlier one. */
  function HashMap(listing: seq<(string, string)>): (m: map<string, string>)
    ensures forall name :: name in m <==> exists i :: 0 <= i < |listing| && listing[i].0 == name
  {
    if |listing| == 0 then map[]
    else
      var last := listing[|listing| - 1];
      var m := HashMap(listing[..|listing| - 1]);
      assert forall i :: 0 <= i < |listing| - 1 ==> listing[..|listing| - 1][i] == listing[i];
      m[last.0 := last.1]
  }

  /** With duplicate names the last pair wins: the map holds the hash of the last
      listing entry with that name. */
  lemma {:induction false} LastPairWins(listing: seq<(string, string)>, i: nat)
    requires i < |listing|
    requires forall j :: i < j < |listing| ==> listing[j].0 != listing[i].0
    ensures listing[i].0 in HashMap(listing) && HashMap(listing)[listing[i].0] == listing[i].1
  {
    var init := listing[..|listing| - 1];
    if i < |listing| - 1 {
      assert init[i] == listing[i];
      assert forall j :: i < j < |init| ==> init[j] == listing[j];
      LastPairWins(init, i);
    }
  }

  /** The copy rule of a single file. */
  predicate NeedsCopy(name: string, hash: string, device: map<string, string>) {
    name !in device || device[name] != hash
  }

  /** The decision for one local Python file with local hash `hash`. */
  function Decide(name: string, hash: string, device: map<string, string>): (a: Action)
    ensures a.name == name
    ensures a.Copy? <==> NeedsCopy(name, hash, device)
    ensures a.Keep? ==> name in device && device[name] == hash && a.hash == hash
  {
    if name !in device || hash != device[name] then Copy(name) else Keep(name, hash)
  }

  /** The local names the script considers: those ending in `.py`, in listing order. */
  function PyFiles(local: seq<string>): (r: seq<string>)
    ensures |r| <= |local|
    ensures forall name :: name in r <==> name in local && EndsWith(name, SUFFIX)
  {
    if |local| == 0 then []
    else
      var init := local[..|local| - 1];
      var last := local[|local| - 1];
      assert local == init + [last];
      PyFiles(init) + (if EndsWith(last, SUFFIX) then [last] else [])
  }

  /** `idx` places each element of `r` at a position of `s` holding it, with
      positions strictly increasing. */
  ghost predicate Embedding(r: seq<string>, s: seq<string>, idx: seq<nat>) {
    && |idx| == |r|
    && (forall k :: 0 <= k < |r| ==> idx[k] < |s| && s[idx[k]] == r[k])
    && (forall k :: 0 < k < |r| ==> idx[k - 1] < idx[k])
  }

  /** `r` is a subsequence of `s`: its elements occur in `s` in the same order. */
  ghost predicate InOrder(r: seq<string>, s: seq<string>) {
    exists idx :: Embedding(r, s, idx)
  }

  /** The considered files keep the order of the local listing. */
  lemma PyFilesInOrder(local: seq<string>)
    ensures InOrder(PyFiles(local), local)
  {
    var idx := PyFilesEmbedding(local);
  }

  /** The positions in the local listing of the considered files. */
  lemma {:induction false} PyFilesEmbedding(local: seq<string>) returns (idx: seq<nat>)
    ensures Embedding(PyFiles(local), local, idx)
  {
    if |local| == 0 {
      idx := [];
    } else {
      var init := local[..|local| - 1];
      var last := local[|local| - 1];
      var before := PyFilesEmbedding(init);
      EmbeddingGrows(PyFiles(init), init, before, last);
      assert init + [last] == local;
      if EndsWith(last, SUFFIX) {
        EmbeddingSnoc(PyFiles(init), local, before);
        idx := before + [|local| - 1];
      } else {
        idx := before;
      }
    }
  }

  /** An embedding into `s` is still one into `s` with an element appended. */
  lemma EmbeddingGrows(r: seq<string>, s: seq<string>, idx: seq<nat>, x: string)
    requires Embedding(r, s, idx)
    ensures Embedding(r, s + [x], idx)
    ensures forall k :: 0 <= k < |idx| ==> idx[k] < |s|
  {
    forall k | 0 <= k < |r|
      ensures idx[k] < |s + [x]| && (s + [x])[idx[k]] == r[k]
    {
      assert (s + [x])[idx[k]] == s[idx[k]];
    }
  }

  /** An embedding that stays below the last position of `s` extends by that
      position to one of `r` followed by the last element of `s`. */
  lemma EmbeddingSnoc(r: seq<string>, s: seq<string>, idx: seq<nat>)
    requires |s| > 0 && Embedding(r, s, idx)
    requires forall k :: 0 <= k < |idx| ==> idx[k] < |s| - 1
    ensures Embedding(r + [s[|s| - 1]], s, idx + [|s| - 1])
  {
    var r' := r + [s[|s| - 1]];
    var idx' := idx + [|s| - 1];
    assert |idx'| == |r'|;
    forall k | 0 <= k < |r'|
      ensures idx'[k] < |s| && s[idx'[k]] == r'[k]
    {
      if k < |r| {
        assert idx'[k] == idx[k] && r'[k] == r[k];
      }
    }
    forall k | 0 < k < |r'|
      ensures idx'[k - 1] < idx'[k]
    {
      if k < |r| {
        assert idx'[k - 1] == idx[k - 1] && idx'[k] == idx[k];
      } else {
        assert idx'[k - 1] == idx[k - 1];
      }
    }
  }

  /** The script's actions, one per local Python file in listing order. */
  function Plan(local: seq<string>, localHash: string -> string, device: map<string, string>): (plan: seq<Action>)
    ensures |plan| == |PyFiles(local)|
    ensures forall k :: 0 <= k < |plan| ==> plan[k].name == PyFiles(local)[k]
  {
    if |local| == 0 then []
    else
      var init := local[..|local| - 1];
      var last := local[|local| - 1];
      Plan(init, localHash, device)
        + (if EndsWith(last, SUFFIX) then [Decide(last, localHash(last), device)] else [])
  }

  /** The loop of the deploy script over the local source directory. */
  method CopyPlan(local: seq<string>, localHash: string -> string, listing: seq<(string, string)>)
    returns (plan: seq<Action>)
    ensures plan == Plan(local, localHash, HashMap(listing))
    ensures forall a :: a in plan ==> a.name in local && EndsWith(a.name, SUFFIX)
  {
    var device := HashMap(listing);
    plan := [];
    var i := 0;
    while i < |local|
      invariant 0 <= i <= |local|
      invariant plan == Plan(local[..i], localHash, device)
    {
      var name := local[i];
      assert local[..i + 1][..i] == local[..i];
      if EndsWith(name, SUFFIX) {
        plan := plan + [Decide(name, localHash(name), device)];
      }
      i := i + 1;
    }
    assert local[..i] == local;
    PlanNames(local, localHash, device);
  }

  /** Every action concerns a local Python file. */
  lemma PlanNames(local: seq<string>, localHash: string -> string, device: map<string, string>)
    ensures forall a :: a in Plan(local, localHash, device) ==> a.name in local && EndsWith(a.name, SUFFIX)
  {
    var plan := Plan(local, localHash, device);
    forall a | a in plan
      ensures a.name in local && EndsWith(a.name, SUFFIX)
    {
      var k :| 0 <= k < |plan| && plan[k] == a;
      assert PyFiles(local)[k] in PyFiles(local);
    }
  }

  /** A file is copied exactly when it is a local Python file that the board
      lacks or holds with a different hash. */
  lemma {:induction false} CopiedIffNeeded(local: seq<string>, localHash: string -> string,
                                           device: map<string, string>, name: string)
    ensures Copy(name) in Plan(local, localHash, device)
      <==> name in local && EndsWith(name, SUFFIX) && NeedsCopy(name, localHash(name), device)
  {
    if |local| > 0 {
      var init := local[..|local| - 1];
      var last := local[|local| - 1];
      assert local == init + [last];
      CopiedIffNeeded(init, localHash, device, name);
    }
  }

  /** A file whose hash matches the board's is never copied. */
  lemma MatchingNotCopied(local: seq<string>, localHash: string -> string,
                          device: map<string, string>, name: string)
    requires name in device && device[name] == localHash(name)
    ensures Copy(name) !in Plan(local, localHash, device)
  {
    CopiedIffNeeded(local, localHash, device, name);
  }

  /** Files present only on the board are left alone: no action names them. */
  lemma DeviceOnlyUntouched(local: seq<string>, localHash: string -> string,
                            device: map<string, string>, name: string)
    requires name !in local
    ensures forall a :: a in Plan(local, localHash, device) ==> a.name != name
  {
    PlanNames(local, localHash, device);
  }
}

=== FILE: settings.dfy ===
/** The accelerometer settings persisted in `settings.json`: `load_settings`
    pushes them into the sensor, `save_settings` writes the file and reloads. */
module Settings {
  import opened Common
  import Lis3dh

  /** A JSON value as far as the loader cares: an integer, or anything else. */
  datatype JsonValue = JInt(n: int) | JOther

  /** The state of `settings.json`: absent, not valid JSON, a JSON object, or a
      JSON document that is not an object (only its truthiness matters). */
  datatype Document =
    | Missing
    | Malformed
    | Object(fields: map<string, JsonValue>)
    | Scalar(truthy: bool)

  const SENSITIVITY_KEY: string := "sensitivity"
  const DURATION_KEY: string := "duration"

  /** The document `save_settings` writes. */
  function Stored(sensitivity: int, duration: int): Document {
    Object(map[SENSITIVITY_KEY := JInt(sensitivity), DURATION_KEY := JInt(duration)])
  }

  /** Python truthiness of the loaded document; a file that cannot be opened or
      parsed is replaced by `{}`. */
  predicate Truthy(doc: Document) {
    match doc
    case Missing => false
    case Malformed => false
    case Object(fields) => |fields| > 0
    case Scalar(truthy) => truthy
  }

  /** `set_sensitivity(v)` / `set_duration(v)` on a JSON value: a non-integer
      fails to pack into `bytes([v])` with TypeError before reaching the bus. */
  function SetSensitivityTo(regs: map<int, Byte>, v: JsonValue): Lis3dh.Run {
    match v
    case JInt(n) => Lis3dh.SetSensitivity(regs, n)
    case JOther => Lis3dh.Run([], regs, Some(TypeError))
  }

  function SetDurationTo(regs: map<int, Byte>, v: JsonValue): Lis3dh.Run {
    match v
    case JInt(n) => Lis3dh.SetDuration(regs, n)
    case JOther => Lis3dh.Run([], regs, Some(TypeError))
  }

  /** Both keys are present with integer values that fit in a byte. */
  predicate Loadable(doc: Document) {
    && doc.Object?
    && SENSITIVITY_KEY in doc.fields && doc.fields[SENSITIVITY_KEY].JInt?
    && DURATION_KEY in doc.fields && doc.fields[DURATION_KEY].JInt?
    && 0 <= doc.fields[SENSITIVITY_KEY].n < 256
    && 0 <= doc.fields[DURATION_KEY].n < 256
  }

  /** `load_settings`. */
  function LoadSettings(doc: Document, regs: map<int, Byte>): (r: Lis3dh.Run)
    // an unreadable file, an empty object or a falsy document writes nothing
    ensures !Truthy(doc) ==> r == Lis3dh.Run([], regs, None)
    // both lookups happen before any write: a missing key writes nothing
    ensures Truthy(doc) && doc.Object? && (SENSITIVITY_KEY !in doc.fields || DURATION_KEY !in doc.fields) ==>
      r == Lis3dh.Run([], regs, Some(KeyError))
    ensures Truthy(doc) && doc.Scalar? ==> r == Lis3dh.Run([], regs, Some(TypeError))
    // a loadable document writes the threshold, then the duration
    ensures Loadable(doc) ==>
      var s := doc.fields[SENSITIVITY_KEY].n;
      var d := doc.fields[DURATION_KEY].n;
      && r.raised.None?
      && r.log == [Lis3dh.Write(Lis3dh.INT1_THS, s), Lis3dh.Write(Lis3dh.INT1_DURATION, d)]
      && r.regs == regs[Lis3dh.INT1_THS := s][Lis3dh.INT1_DURATION := d]
    // otherwise a truthy document raises
    ensures Truthy(doc) && !Loadable(doc) ==> r.raised.Some?
    // only the two interrupt registers are ever written, threshold first
    ensures forall a :: a in r.log ==> a.Write? && a.reg in {Lis3dh.INT1_THS, Lis3dh.INT1_DURATION}
    ensures |r.log| <= 2 && (|r.log| > 0 ==> r.log[0].reg == Lis3dh.INT1_THS)
  {
    match doc
    case Missing => Lis3dh.Run([], regs, None)
    case Malformed => Lis3dh.Run([], regs, None)
    case Scalar(truthy) => Lis3dh.Run([], regs, if truthy then Some(TypeError) else None)
    case Object(fields) =>
      if |fields| == 0 then Lis3dh.Run([], regs, None)
      else if SENSITIVITY_KEY !in fields || DURATION_KEY !in fields then Lis3dh.Run([], regs, Some(KeyError))
      else
        var first := SetSensitivityTo(regs, fields[SENSITIVITY_KEY]);
        Lis3dh.Then(first, SetDurationTo(first.regs, fields[DURATION_KEY]))
  }

  /** `save_settings(s, d)`: the file is rewritten first, then reloaded; the new
      document persists even when the reload raises. */
  function SaveSettings(sensitivity: int, duration: int, regs: map<int, Byte>): (r: (Document, Lis3dh.Run))
    // the file holds the two values under their keys, whatever they are
    ensures r.0.Object? && r.0.fields.Keys == {SENSITIVITY_KEY, DURATION_KEY}
    ensures r.0.fields[SENSITIVITY_KEY] == JInt(sensitivity) && r.0.fields[DURATION_KEY] == JInt(duration)
    // byte-sized values reach the two registers, and no other register changes
    ensures 0 <= sensitivity < 256 && 0 <= duration < 256 ==>
      && r.1.raised.None?
      && r.1.regs == regs[Lis3dh.INT1_THS := sensitivity][Lis3dh.INT1_DURATION := duration]
    // a value outside a byte makes the reload raise, after the file was written
    ensures !(0 <= sensitivity < 256 && 0 <= duration < 256) ==> r.1.raised == Some(ValueError)
    // the reload is `load_settings` of the document just written
    ensures r.1 == LoadSettings(r.0, regs)
  {
    var doc := Stored(sensitivity, duration);
    assert doc.fields[SENSITIVITY_KEY] == JInt(sensitivity);
    assert doc.fields[DURATION_KEY] == JInt(duration);
    assert |doc.fields| > 0 by { assert SENSITIVITY_KEY in doc.fields; }
    (doc, LoadSettings(doc, regs))
  }

  /** Round trip: saving byte-sized values leaves the sensor's threshold and
      duration registers holding exactly those values. */
  lemma SaveThenLoad(sensitivity: int, duration: int, regs: map<int, Byte>)
    requires 0 <= sensitivity < 256 && 0 <= duration < 256
    ensures var (doc, run) := SaveSettings(sensitivity, duration, regs);
      && run.raised.None?
      && run.regs[Lis3dh.INT1_THS] == sensitivity
      && run.regs[Lis3dh.INT1_DURATION] == duration
      && LoadSettings(doc, run.regs).regs == run.regs
  {
    var doc := Stored(sensitivity, duration);
    assert doc.fields[SENSITIVITY_KEY] == JInt(sensitivity);
    assert doc.fields[DURATION_KEY] == JInt(duration);
    assert Loadable(doc);
  }

  /** A value outside a byte is still written to the file, and from then on
      every load of that file raises before finishing. */
  lemma OversizedValuePersists(sensitivity: nat, duration: nat, regs: map<int, Byte>, later: map<int, Byte>)
    requires sensitivity >= 256 || duration >= 256
    ensures var (doc, run) := SaveSettings(sensitivity, duration, regs);
      && doc == Stored(sensitivity, duration)
      && run.raised == Some(ValueError)
      && LoadSettings(doc, later).raised == Some(ValueError)
  {
    var doc := Stored(sensitivity, duration);
    assert doc.fields[SENSITIVITY_KEY] == JInt(sensitivity);
    assert doc.fields[DURATION_KEY] == JInt(duration);
    assert |doc.fields| > 0 by { assert SENSITIVITY_KEY in doc.fields; }
  }

  /** Loading twice without a save in between makes the same writes both times
      and leaves the same registers. */
  lemma LoadIdempotent(doc: Document, regs: map<int, Byte>)
    ensures var once := LoadSettings(doc, regs);
      var twice := LoadSettings(doc, once.regs);
      && twice.log == once.log
      && twice.raised == once.raised
      && twice.regs == once.regs
  {
    var once := LoadSettings(doc, regs);
    if Loadable(doc) {
      var s := doc.fields[SENSITIVITY_KEY].n;
      var d := doc.fields[DURATION_KEY].n;
      assert once.regs[Lis3dh.INT1_THS := s][Lis3dh.INT1_DURATION := d] == once.regs;
    } else if doc.Object? && |doc.fields| > 0 && SENSITIVITY_KEY in doc.fields && DURATION_KEY in doc.fields {
      // the threshold may have been written before the duration raised
      var first := SetSensitivityTo(regs, doc.fields[SENSITIVITY_KEY]);
      if first.raised.None? {
        var s := doc.fields[SENSITIVITY_KEY].n;
        assert first.regs == regs[Lis3dh.INT1_THS := s];
        assert first.regs[Lis3dh.INT1_THS := s] == first.regs;
      }
    }
  }
}

=== FILE: telegram.dfy ===
/** The chat-service client's `get_messages`: the persisted update cursor in
    `lastupdateid.txt`, the `offset` it sends, and how the reply moves the
    cursor. The HTTP request is a parameter: a function from the offset sent
    (or none) to the decoded JSON reply (or none), or to the exception the
    request raised. */
module Telegram {
  import opened Common
  import opened Text

  datatype Message = Message(text: Option<string>)
  datatype Update = Update(updateId: Option<int>, message: Option<Message>)

  /** The decoded reply; `result` is absent when the key is missing. */
  datatype Body = Body(result: Option<seq<Update>>)

  /** The getUpdates request: the offset sent, if any, to the decoded reply
      (none for an empty one), or to the error the request raised. */
  type Server = Option<int> -> Result<Option<Body>>

  /** What one call did: the offset it sent, the messages it returned, and the
      text it wrote to the cursor file, if it wrote one. */
  datatype Poll = Poll(offset: Option<int>, messages: Body, written: Option<string>)

  /** `messages.get('result')` is truthy: present and non-empty. */
  predicate HasResults(b: Body) {
    b.result.Some? && |b.result.value| > 0
  }

  function LastUpdate(b: Body): Update
    requires HasResults(b)
  {
    b.result.value[|b.result.value| - 1]
  }

  /** The `update_id` of the last result when it is present and truthy. */
  function LastUpdateId(b: Body): Option<int> {
    if HasResults(b) && LastUpdate(b).updateId.Some? && LastUpdate(b).updateId.value != 0
    then LastUpdate(b).updateId
    else None
  }

  /** The line read from the cursor file: none when the file cannot be opened. */
  function StoredLine(file: Option<string>): Option<string> {
    match file
    case None => None
    case Some(content) => Some(FirstLine(content))
  }

  /** The offset to request: only for a non-empty stored line, and then `int()` of
      it, which raises ValueError when the line is not a number. */
  function RequestOffset(file: Option<string>): (r: Result<Option<int>>)
    ensures file.None? ==> r == Ok(None)
    ensures file.Some? && FirstLine(file.value) == "" ==> r == Ok(None)
    ensures file.Some? && FirstLine(file.value) != "" ==>
      (r.Ok? <==> ParseInt(FirstLine(file.value)).Some?)
      && (r.Ok? ==> r.value == ParseInt(FirstLine(file.value)))
      && (r.Err? ==> r.error == ValueError)
  {
    match StoredLine(file)
    case None => Ok(None)
    case Some(line) =>
      if line == "" then Ok(None)
      else match ParseInt(line)
        case None => Err(ValueError)
        case Some(n) => Ok(Some(n))
  }

  /** `get_messages`. */
  function GetMessages(file: Option<string>, server: Server): (r: Result<Poll>)
    // an unparseable cursor raises before the request is made
    ensures RequestOffset(file).Err? ==> r == Err(ValueError)
    // a request that raises propagates its error, and the cursor file is not written
    ensures RequestOffset(file).Ok? && server(RequestOffset(file).value).Err? ==>
      r == Err(server(RequestOffset(file).value).error)
    ensures r.Ok? ==> r.value.offset == RequestOffset(file).value && server(r.value.offset).Ok?
    // and it succeeds whenever the cursor parses and the request returns
    ensures r.Ok? <==> RequestOffset(file).Ok? && server(RequestOffset(file).value).Ok?
    // no reply is returned as `{}` and leaves the cursor alone
    ensures r.Ok? && server(r.value.offset).value.None? ==>
      r.value.messages == Body(None) && r.value.written.None?
    // any other reply is returned unmodified
    ensures r.Ok? && server(r.value.offset).value.Some? ==> r.value.messages == server(r.value.offset).value.value
    // the cursor is rewritten exactly when the last result carries a truthy update_id u, to str(u + 1)
    ensures r.Ok? ==> (r.value.written.Some? <==> LastUpdateId(r.value.messages).Some?)
    ensures r.Ok? && r.value.written.Some? ==>
      r.value.written.value == IntToString(LastUpdateId(r.value.messages).value + 1)
  {
    match RequestOffset(file)
    case Err(e) => Err(e)
    case Ok(offset) =>
      match server(offset)
      case Err(e) => Err(e)
      case Ok(reply) =>
        var messages := if reply.None? then Body(None) else reply.value;
        var written :=
          if HasResults(messages) then
            match LastUpdate(messages).updateId
            case Some(u) => if u != 0 then Some(IntToString(u + 1)) else None
            case None => None
          else None;
        Ok(Poll(offset, messages, written))
  }

  /** The cursor file after a call: the written text, or the old file. */
  function FileAfter(file: Option<string>, p: Poll): Option<string> {
    if p.written.Some? then p.written else file
  }

  /** Cursor round trip: after a call that stored `u + 1`, the next call reads
      offset `u + 1` back and asks for it, whatever the first reply was; it
      completes unless its own request raises. */
  lemma CursorRoundTrip(file: Option<string>, first: Server, second: Server)
    requires GetMessages(file, first).Ok?
    requires LastUpdateId(GetMessages(file, first).value.messages).Some?
    ensures var p := GetMessages(file, first).value;
      var u := LastUpdateId(p.messages).value;
      var next := GetMessages(FileAfter(file, p), second);
      && RequestOffset(FileAfter(file, p)) == Ok(Some(u + 1))
      && (next.Ok? <==> second(Some(u + 1)).Ok?)
      && (next.Ok? ==> next.value.offset == Some(u + 1))
  {
    var p := GetMessages(file, first).value;
    var u := LastUpdateId(p.messages).value;
    var text := IntToString(u + 1);
    assert FileAfter(file, p) == Some(text);
    ParsePrinted(u + 1);
    assert forall i :: 0 <= i < |text| ==> text[i] != '\n' by {
      PrintedHasNoNewline(u + 1);
    }
    FirstLineOfOneLine(text);
    assert text != "" by { PrintedHasNoNewline(u + 1); }
  }

  lemma PrintedHasNoNewline(i: int)
    ensures |IntToString(i)| > 0
    ensures forall k :: 0 <= k < |IntToString(i)| ==> IntToString(i)[k] != '\n'
  {
    var d := NatToString(if i < 0 then -i else i);
    assert forall k :: 0 <= k < |d| ==> IsDigit(d[k]);
  }

  /** Only the last result is consulted for the cursor, not the largest id: a
      reply whose ids are 10 then 5 stores 6. */
  lemma LastNotLargest(file: Option<string>)
    requires RequestOffset(file).Ok?
    ensures var reply := Body(Some([Update(Some(10), None), Update(Some(5), None)]));
      var r := GetMessages(file, _ => Ok(Some(reply)));
      r.Ok? && r.value.written == Some(IntToString(6))
  {
  }

  /** Two replies whose last results agree move the cursor identically. */
  lemma OnlyLastResultMatters(file: Option<string>, a: seq<Update>, b: seq<Update>)
    requires RequestOffset(file).Ok?
    requires |a| > 0 && |b| > 0 && a[|a| - 1] == b[|b| - 1]
    ensures var ra := GetMessages(file, _ => Ok(Some(Body(Some(a)))));
      var rb := GetMessages(file, _ => Ok(Some(Body(Some(b)))));
      ra.Ok? && rb.Ok? && ra.value.written == rb.value.written
  {
  }
}

=== FILE: text.dfy ===
/** String helpers with Python's semantics: prefix and suffix tests, substring
    search, `str.split` with a separator, `str.strip`, `int()` and `str()` on
    decimal integers. */
module Text {
  import opened Common

  predicate StartsWith(s: string, prefix: string) {
    |prefix| <= |s| && s[..|prefix|] == prefix
  }

  predicate EndsWith(s: string, suffix: string) {
    |suffix| <= |s| && s[|s| - |suffix|..] == suffix
  }

  /** `t` occurs in `s` starting at index `i`. */
  predicate OccursAt(s: string, t: string, i: int) {
    0 <= i && i + |t| <= |s| && s[i..i + |t|] == t
  }

  /** The first index at or after `i` where `t` occurs in `s` (Python's `str.find`). */
  function FindFrom(s: string, t: string, i: nat): (r: Option<nat>)
    requires i <= |s|
    ensures r.Some? ==> i <= r.value && OccursAt(s, t, r.value)
    decreases |s| - i
  {
    if OccursAt(s, t, i) then Some(i)
    else if i == |s| then None
    else FindFrom(s, t, i + 1)
  }

  /** `FindFrom` finds the first occurrence, and finds nothing only when there
      is none. */
  lemma {:induction false} FindFromIsFirst(s: string, t: string, i: nat)
    requires i <= |s|
    ensures FindFrom(s, t, i).Some? ==> forall j :: i <= j < FindFrom(s, t, i).value ==> !OccursAt(s, t, j)
    ensures FindFrom(s, t, i).None? ==> forall j :: i <= j ==> !OccursAt(s, t, j)
    decreases |s| - i
  {
    if !OccursAt(s, t, i) && i < |s| {
      FindFromIsFirst(s, t, i + 1);
    }
  }

  /** Python's `t in s`. */
  predicate Contains(s: string, t: string) {
    FindFrom(s, t, 0).Some?
  }

  lemma OccursInPrefix(s: string, t: string, k: nat, j: int)
    requires k <= |s|
    requires OccursAt(s[..k], t, j)
    ensures OccursAt(s, t, j)
  {
    assert s[..k][j..j + |t|] == s[j..j + |t|];
  }

  /** No occurrence of `t` lies wholly before the first one. */
  lemma HeadIsFree(s: string, t: string, k: nat)
    requires |t| > 0 && FindFrom(s, t, 0) == Some(k)
    ensures !Contains(s[..k], t)
  {
    if Contains(s[..k], t) {
      var j := FindFrom(s[..k], t, 0).value;
      OccursInPrefix(s, t, k, j);
      FindFromIsFirst(s, t, 0);
    }
  }

  /** Python's `s.split(sep)` for a non-empty separator: the pieces between the
      occurrences of `sep`, found left to right. */
  function Split(s: string, sep: string): (parts: seq<string>)
    requires |sep| > 0
    ensures |parts| >= 1
    decreases |s|
  {
    match FindFrom(s, sep, 0)
    case None => [s]
    case Some(k) => [s[..k]] + Split(s[k + |sep|..], sep)
  }

  /** There is more than one piece exactly when the separator occurs. */
  lemma SplitCount(s: string, sep: string)
    requires |sep| > 0
    ensures |Split(s, sep)| == 1 <==> !Contains(s, sep)
  {
  }

  /** No piece contains the separator. */
  lemma {:induction false} PiecesAreFree(s: string, sep: string)
    requires |sep| > 0
    ensures forall k :: 0 <= k < |Split(s, sep)| ==> !Contains(Split(s, sep)[k], sep)
    decreases |s|
  {
    var found := FindFrom(s, sep, 0);
    if found.Some? {
      var k := found.value;
      var rest := s[k + |sep|..];
      SplitAtFirst(s, sep, k);
      HeadIsFree(s, sep, k);
      PiecesAreFree(rest, sep);
    }
  }

  /** Python's `sep.join(parts)`. */
  function Join(parts: seq<string>, sep: string): string
    requires |parts| >= 1
    decreases |parts|
  {
    if |parts| == 1 then parts[0] else parts[0] + sep + Join(parts[1..], sep)
  }

  /** Splitting loses nothing: joining the pieces with the separator gives the input back. */
  lemma {:induction false} JoinSplit(s: string, sep: string)
    requires |sep| > 0
    ensures Join(Split(s, sep), sep) == s
    decreases |s|
  {
    var found := FindFrom(s, sep, 0);
    if found.Some? {
      var k := found.value;
      var rest := s[k + |sep|..];
      var parts := Split(s, sep);
      JoinSplit(rest, sep);
      SplitAtFirst(s, sep, k);
      assert parts[1..] == Split(rest, sep);
      assert |parts| >= 2;
      assert Join(parts, sep) == s[..k] + sep + Join(Split(rest, sep), sep);
      Reassemble(s, k, |sep|);
    }
  }

  lemma Reassemble(s: string, k: nat, n: nat)
    requires k + n <= |s|
    ensures s == s[..k] + s[k..k + n] + s[k + n..]
  {
  }

  lemma SplitAtFirst(s: string, sep: string, k: nat)
    requires |sep| > 0 && FindFrom(s, sep, 0) == Some(k)
    ensures Split(s, sep) == [s[..k]] + Split(s[k + |sep|..], sep)
  {
  }

  /** Joined pieces: the first two are separated by `sep`, and whatever follows
      the second is empty or starts with `sep` again. */
  lemma JoinedShape(parts: seq<string>, sep: string)
    requires |parts| >= 2
    ensures exists rest :: Join(parts, sep) == parts[0] + sep + parts[1] + rest && (rest == "" || StartsWith(rest, sep))
  {
    var tail := parts[1..];
    if |tail| == 1 {
      assert Join(parts, sep) == parts[0] + sep + parts[1] + "";
    } else {
      var rest := sep + Join(tail[1..], sep);
      assert Join(tail, sep) == parts[1] + rest;
      assert StartsWith(rest, sep);
      assert Join(parts, sep) == parts[0] + sep + parts[1] + rest;
    }
  }

  /** The shape of a string whose split has at least two pieces: the first two
      pieces are separated by the first occurrence of `sep`, and whatever follows
      the second piece is empty or starts with `sep` again. */
  lemma SecondPieceShape(s: string, sep: string)
    requires |sep| > 0 && |Split(s, sep)| >= 2
    ensures var parts := Split(s, sep);
      exists rest :: s == parts[0] + sep + parts[1] + rest && (rest == "" || StartsWith(rest, sep))
  {
    JoinSplit(s, sep);
    JoinedShape(Split(s, sep), sep);
  }

  predicate IsSpace(c: char) {
    c == ' ' || c == '\t' || c == '\n' || c == '\r' || c == '\U{000B}' || c == '\U{000C}'
  }

  function TrimStart(s: string): (r: string)
    ensures |r| <= |s|
    ensures |r| > 0 ==> !IsSpace(r[0])
  {
    if |s| > 0 && IsSpace(s[0]) then TrimStart(s[1..]) else s
  }

  function TrimEnd(s: string): (r: string)
    ensures |r| <= |s|
    ensures |r| > 0 ==> !IsSpace(r[|r| - 1])
  {
    if |s| > 0 && IsSpace(s[|s| - 1]) then TrimEnd(s[..|s| - 1]) else s
  }

  /** Python's `s.strip()` restricted to ASCII whitespace. */
  function Strip(s: string): string {
    TrimEnd(TrimStart(s))
  }

  predicate IsDigit(c: char) {
    '0' <= c <= '9'
  }

  /** A non-empty run of ASCII digits, what `[0-9]+` matches. */
  predicate IsDigits(s: string) {
    |s| > 0 && forall i :: 0 <= i < |s| ==> IsDigit(s[i])
  }

  function DigitValue(c: char): nat
    requires IsDigit(c)
  {
    c as int - '0' as int
  }

  function DigitChar(d: int): (c: char)
    requires 0 <= d < 10
    ensures IsDigit(c) && DigitValue(c) == d
  {
    (d + '0' as int) as char
  }

  /** The value of a decimal digit string, most significant digit first. */
  function DigitsValue(s: string): nat
    requires forall i :: 0 <= i < |s| ==> IsDigit(s[i])
  {
    if |s| == 0 then 0 else DigitsValue(s[..|s| - 1]) * 10 + DigitValue(s[|s| - 1])
  }

  /** Python's `str(n)` for a natural number. */
  function NatToString(n: nat): (s: string)
    ensures IsDigits(s)
    decreases n
  {
    if n < 10 then [DigitChar(n)] else NatToString(n / 10) + [DigitChar(n % 10)]
  }

  /** Python's `str(i)`. */
  function IntToString(i: int): string {
    if i < 0 then "-" + NatToString(-i) else NatToString(i)
  }

  /** Python's `int(s)` for base-10 text: surrounding whitespace, an optional sign,
      then one or more digits. Anything else raises ValueError, here `None`. */
  function ParseInt(s: string): Option<int> {
    var t := Strip(s);
    if |t| > 0 && (t[0] == '-' || t[0] == '+') then
      if IsDigits(t[1..]) then
        var magnitude: int := DigitsValue(t[1..]);
        Some(if t[0] == '-' then -magnitude else magnitude)
      else None
    else if IsDigits(t) then Some(DigitsValue(t))
    else None
  }

  lemma {:induction false} DigitsOfNat(n: nat)
    ensures DigitsValue(NatToString(n)) == n
    decreases n
  {
    var s := NatToString(n);
    if n >= 10 {
      DigitsOfNat(n / 10);
      assert s[..|s| - 1] == NatToString(n / 10);
    }
  }

  lemma NoSpaceInDigits(s: string)
    requires forall i :: 0 <= i < |s| ==> IsDigit(s[i])
    ensures Strip(s) == s
  {
    if |s| > 0 {
      assert !IsSpace(s[0]) && !IsSpace(s[|s| - 1]);
    }
  }

  /** Text with no whitespace at either end is its own strip. */
  lemma StripUnchanged(s: string)
    requires |s| > 0 ==> !IsSpace(s[0]) && !IsSpace(s[|s| - 1])
    ensures Strip(s) == s
  {
  }

  lemma ParsePrintedNegative(n: nat)
    requires n > 0
    ensures ParseInt("-" + NatToString(n)) == Some(-(n as int))
  {
    var d := NatToString(n);
    var s := "-" + d;
    DigitsOfNat(n);
    assert s[1..] == d && s[|s| - 1] == d[|d| - 1];
    StripUnchanged(s);
  }

  /** `int(str(i)) == i` for every integer. */
  lemma ParsePrinted(i: int)
    ensures ParseInt(IntToString(i)) == Some(i)
  {
    if i < 0 {
      ParsePrintedNegative(-i);
    } else {
      ParsePrintedNatural(i);
    }
  }

  lemma ParsePrintedNatural(n: nat)
    ensures ParseInt(NatToString(n)) == Some(n)
  {
    var d := NatToString(n);
    DigitsOfNat(n);
    NoSpaceInDigits(d);
    assert IsDigit(d[0]);
  }

  /** The length of the longest run of digits at the start of `s`. */
  function DigitRun(s: string): (n: nat)
    ensures n <= |s|
    ensures forall i :: 0 <= i < n ==> IsDigit(s[i])
    ensures n < |s| ==> !IsDigit(s[n])
  {
    if |s| == 0 || !IsDigit(s[0]) then 0 else 1 + DigitRun(s[1..])
  }

  lemma {:induction false} DigitRunOfDigits(d: string, rest: string)
    requires IsDigits(d)
    requires rest == "" || !IsDigit(rest[0])
    ensures DigitRun(d + rest) == |d|
    decreases |d|
  {
    if |d| > 1 {
      DigitRunOfDigits(d[1..], rest);
      assert (d + rest)[1..] == d[1..] + rest;
    } else {
      assert (d + rest)[1..] == rest;
    }
  }

  /** Python's `f.readline()` on a file holding `content`: everything up to and
      including the first newline. */
  function FirstLine(content: string): (line: string)
    ensures StartsWith(content, line)
  {
    if |content| == 0 then ""
    else if content[0] == '\n' then "\n"
    else [content[0]] + FirstLine(content[1..])
  }

  lemma {:induction false} FirstLineOfOneLine(content: string)
    requires forall i :: 0 <= i < |content| ==> content[i] != '\n'
    ensures FirstLine(content) == content
  {
    if |content| > 0 {
      FirstLineOfOneLine(content[1..]);
    }
  }
}

=== FILE: washing.dfy ===
/** The wake-cycle controller: one boot of the washing-machine monitor, from
    the constructor (which initialises the accelerometer) through
    `WashingMachine.start` to the deep sleep that ends it. Hardware, files and
    the network appear as an ordered trace of effects; `machine.deepsleep` never
    returns, so a deep sleep is always the last effect of a boot. Nothing in
    `start` catches exceptions: a raised error ends the boot without sleeping. */
module Washing {
  import opened Common
  import opened Text
  import Lis3dh
  import Settings
  import Telegram

  const INT_PIN: int := 17
  const DELAY_BEFORE_NOTIFICATION: int := 40   // minutes
  const NOTIFICATION_SLEEP_MS: int := DELAY_BEFORE_NOTIFICATION * 60 * 1000

  /** What `machine.wake_reason()` reported: the timer, the ext0 pin, or
      anything else (power-on, reset button). */
  datatype WakeReason = TimerWake | PinWake | OtherWake

  datatype WakeLevel = AnyHigh

  /** How `send_notification` ends. It looks up a battery-reading method the
      class does not define, which raises AttributeError before any message is
      sent; the other two cases are the outcomes of the send itself. */
  datatype NotifyOutcome = Sent | BatteryLookupFails | SendFails

  /** The notification outcome of the code as written. */
  const NOTIFY_AS_WRITTEN: NotifyOutcome := BatteryLookupFails

  /** One observable step of a boot. */
  datatype Effect =
    | Sensor(access: Lis3dh.Access)                      // an I2C transaction with the accelerometer
    | ReadWakeReason                                     // machine.wake_reason()
    | Connect                                            // do_connect()
    | GetUpdates(offset: Option<int>)                    // the getUpdates request
    | WriteUpdateId(text: string)                        // lastupdateid.txt rewritten
    | WriteSettingsFile(sensitivity: int, duration: int) // settings.json rewritten
    | SendMessage                                        // the sendMessage request
    | ArmExt0(pin: int, level: WakeLevel)                // esp32.wake_on_ext0
    | LedOff                                             // self.led.off()
    | DeepSleep(timeoutMs: Option<int>)                  // machine.deepsleep, which does not return

  /** What survives a deep sleep: the two files and the sensor's registers. */
  datatype World = World(settings: Settings.Document, updateIdFile: Option<string>, regs: map<int, Byte>)

  /** The inputs of one boot: the sensor's WHO_AM_I answer, the wake reason, the
      chat service's answer to an update request (a reply, or an error the
      request raised), and how the notification ends. */
  datatype Env = Env(whoAmI: int, wake: WakeReason, server: Telegram.Server, notify: NotifyOutcome)

  /** The effects of part of a boot, the world after it, and the exception it
      raised (for a whole boot: none means it reached deep sleep). */
  datatype Phase = Phase(effects: seq<Effect>, world: World, raised: Option<Error>)

  /** `first` then `next`, unless `first` raised. */
  function Chain(first: Phase, next: Phase): Phase {
    if first.raised.Some? then first else Phase(first.effects + next.effects, next.world, next.raised)
  }

  function Lift(log: seq<Lis3dh.Access>): (s: seq<Effect>)
    ensures |s| == |log|
    ensures forall i :: 0 <= i < |log| ==> s[i] == Sensor(log[i])
    ensures forall e :: e in s ==> e.Sensor?
  {
    seq(|log|, i requires 0 <= i < |log| => Sensor(log[i]))
  }

  /** Effects that may occur before the final re-arm: no wake-reason read, no
      arming, no LED switching, no sleep. */
  ghost predicate Quiet(s: seq<Effect>) {
    forall e :: e in s ==> !e.ReadWakeReason? && !e.ArmExt0? && !e.LedOff? && !e.DeepSleep?
  }

  /** No network traffic and no cursor-file write. */
  ghost predicate Offline(s: seq<Effect>) {
    forall e :: e in s ==> !e.Connect? && !e.GetUpdates? && !e.WriteUpdateId? && !e.SendMessage?
  }

  /** Sensor writes to the interrupt threshold and duration registers only, as
      `load_settings` makes. */
  ghost predicate SettingsWrites(s: seq<Effect>) {
    forall e :: e in s ==>
      e.Sensor? && e.access.Write? && e.access.reg in {Lis3dh.INT1_THS, Lis3dh.INT1_DURATION}
  }

  // ---------------------------------------------------------------------------
  // The `/set <sensitivity> <duration>` command

  const SET_PREFIX: string := "/set "

  /** `re.compile('/set ([0-9]+) ([0-9]+)').match(text)`: anchored at the start
      only, so trailing text is allowed; both digit runs are greedy. */
  function ParseSetCommand(text: string): (r: Option<(nat, nat)>)
    ensures r.Some? ==> StartsWith(text, SET_PREFIX)
  {
    if !StartsWith(text, SET_PREFIX) then None else ParseArguments(text[|SET_PREFIX|..])
  }

  /** The two space-separated digit runs after the prefix. */
  function ParseArguments(rest: string): Option<(nat, nat)> {
    var n1 := DigitRun(rest);
    if n1 == 0 || n1 == |rest| || rest[n1] != ' ' then None
    else
      var tail := rest[n1 + 1..];
      var n2 := DigitRun(tail);
      if n2 == 0 then None
      else Some((DigitsValue(rest[..n1]), DigitsValue(tail[..n2])))
  }

  /** The second number: digits of `b`, then anything that does not continue it. */
  lemma SecondArgument(b: nat, trailing: string)
    requires trailing == "" || !IsDigit(trailing[0])
    ensures var tail := NatToString(b) + trailing;
      DigitRun(tail) == |NatToString(b)| && DigitsValue(tail[..DigitRun(tail)]) == b
  {
    var db := NatToString(b);
    DigitRunOfDigits(db, trailing);
    assert (db + trailing)[..|db|] == db;
    DigitsOfNat(b);
  }

  /** The first number: a digit run ended by the separating space. */
  lemma FirstArgument(d: string, tail: string)
    requires IsDigits(d)
    ensures var n := DigitRun(tail);
      ParseArguments(d + " " + tail) == if n == 0 then None else Some((DigitsValue(d), DigitsValue(tail[..n])))
  {
    var rest := d + " " + tail;
    assert rest == d + (" " + tail);
    DigitRunOfDigits(d, " " + tail);
    assert rest[..|d|] == d;
    assert rest[|d|] == ' ';
    assert rest[|d| + 1..] == tail;
  }

  lemma ArgumentsRoundTrip(a: nat, b: nat, trailing: string)
    requires trailing == "" || !IsDigit(trailing[0])
    ensures ParseArguments(NatToString(a) + " " + (NatToString(b) + trailing)) == Some((a, b))
  {
    FirstArgument(NatToString(a), NatToString(b) + trailing);
    SecondArgument(b, trailing);
    DigitsOfNat(a);
  }

  /** A command written as `/set a b`, followed by anything that does not
      continue the second number, parses back to `(a, b)`. */
  lemma SetCommandRoundTrip(a: nat, b: nat, trailing: string)
    requires trailing == "" || !IsDigit(trailing[0])
    ensures ParseSetCommand(SET_PREFIX + NatToString(a) + " " + NatToString(b) + trailing) == Some((a, b))
  {
    var rest := NatToString(a) + " " + (NatToString(b) + trailing);
    var text := SET_PREFIX + NatToString(a) + " " + NatToString(b) + trailing;
    assert text == SET_PREFIX + rest;
    assert StartsWith(text, SET_PREFIX) && text[|SET_PREFIX|..] == rest;
    ArgumentsRoundTrip(a, b, trailing);
  }

  /** `text` is the prefix, a digit run `d1`, one space, a digit run `d2`, and
      then something that does not continue `d2`. */
  ghost predicate SetShape(text: string, d1: string, d2: string, rest: string) {
    && text == SET_PREFIX + (d1 + " " + (d2 + rest))
    && IsDigits(d1) && IsDigits(d2)
    && (rest == "" || !IsDigit(rest[0]))
  }

  /** The pattern matches `text` with groups whose decimal values are `s` and `d`. */
  ghost predicate MatchesSet(text: string, s: nat, d: nat) {
    exists d1, d2, rest :: SetShape(text, d1, d2, rest) && DigitsValue(d1) == s && DigitsValue(d2) == d
  }

  /** The parser accepts a text with values `(s, d)` exactly when the pattern
      matches it with those group values. */
  lemma ParseSetCommandMatches(text: string, s: nat, d: nat)
    ensures ParseSetCommand(text) == Some((s, d)) <==> MatchesSet(text, s, d)
  {
    if ParseSetCommand(text) == Some((s, d)) {
      var d1, d2, rest := ParsedShape(text);
    }
    if MatchesSet(text, s, d) {
      var d1, d2, rest :| SetShape(text, d1, d2, rest) && DigitsValue(d1) == s && DigitsValue(d2) == d;
      ShapeParses(text, d1, d2, rest);
    }
  }

  /** What an accepted text is made of. */
  lemma ParsedShape(text: string) returns (d1: string, d2: string, rest: string)
    requires ParseSetCommand(text).Some?
    ensures SetShape(text, d1, d2, rest)
    ensures ParseSetCommand(text) == Some((DigitsValue(d1), DigitsValue(d2)))
  {
    assert StartsWith(text, SET_PREFIX);
    var args := text[|SET_PREFIX|..];
    assert ParseArguments(args).Some?;
    var n1 := DigitRun(args);
    assert 0 < n1 < |args| && args[n1] == ' ';
    var tail := args[n1 + 1..];
    var n2 := DigitRun(tail);
    assert n2 > 0;
    d1, d2, rest := args[..n1], tail[..n2], tail[n2..];
    assert IsDigits(d1) by {
      forall i | 0 <= i < |d1| ensures IsDigit(d1[i]) { assert d1[i] == args[i]; }
    }
    assert IsDigits(d2) by {
      forall i | 0 <= i < |d2| ensures IsDigit(d2[i]) { assert d2[i] == tail[i]; }
    }
    assert rest == "" || !IsDigit(rest[0]) by {
      if rest != "" { assert rest[0] == tail[n2]; }
    }
    assert args == d1 + " " + tail;
    assert tail == d2 + rest;
    assert text == SET_PREFIX + args;
  }

  /** Every text of the matched shape is accepted with the groups' values. */
  lemma ShapeParses(text: string, d1: string, d2: string, rest: string)
    requires SetShape(text, d1, d2, rest)
    ensures ParseSetCommand(text) == Some((DigitsValue(d1), DigitsValue(d2)))
  {
    var args := d1 + " " + (d2 + rest);
    assert text == SET_PREFIX + args;
    assert StartsWith(text, SET_PREFIX) && text[|SET_PREFIX|..] == args;
    FirstArgument(d1, d2 + rest);
    DigitRunOfDigits(d2, rest);
    assert (d2 + rest)[..|d2|] == d2;
  }

  // ---------------------------------------------------------------------------
  // The phases of a boot

  /** The threshold and duration registers hold `s` and `d`. */
  ghost predicate RegsHold(regs: map<int, Byte>, s: int, d: int) {
    && Lis3dh.INT1_THS in regs && regs[Lis3dh.INT1_THS] == s
    && Lis3dh.INT1_DURATION in regs && regs[Lis3dh.INT1_DURATION] == d
  }

  /** The command carried by the last result of a reply, if its text is a
      `/set` command. */
  function PendingCommand(b: Telegram.Body): Option<(nat, nat)> {
    if !Telegram.HasResults(b) then None
    else
      var last := Telegram.LastUpdate(b);
      if last.message.Some? && last.message.value.text.Some?
      then ParseSetCommand(last.message.value.text.value)
      else None
  }

  /** `save_settings(s, d)` as a phase: the file is rewritten, then reloaded
      into the sensor. */
  function ApplySetCommand(s: nat, d: nat, w: World): (r: Phase)
    ensures |r.effects| > 0 && r.effects[0] == WriteSettingsFile(s, d)
    ensures SettingsWrites(r.effects[1..]) && Quiet(r.effects) && Offline(r.effects)
    ensures r.world.settings == Settings.Stored(s, d) && r.world.updateIdFile == w.updateIdFile
    ensures s < 256 && d < 256 ==>
      r.raised.None? && RegsHold(r.world.regs, s, d)
    ensures s >= 256 || d >= 256 ==> r.raised == Some(ValueError)
  {
    var (doc, load) := Settings.SaveSettings(s, d, w.regs);
    if s < 256 && d < 256 then
      Settings.SaveThenLoad(s, d, w.regs);
      Phase([WriteSettingsFile(s, d)] + Lift(load.log), w.(settings := doc, regs := load.regs), load.raised)
    else
      Settings.OversizedValuePersists(s, d, w.regs, w.regs);
      Phase([WriteSettingsFile(s, d)] + Lift(load.log), w.(settings := doc, regs := load.regs), load.raised)
  }

  /** What `check_new_params` does with the fetched reply: only the last
      result's text is inspected; a result without message or text raises
      KeyError. */
  function HandleReply(messages: Telegram.Body, w: World): (r: Phase)
    ensures PendingCommand(messages).Some? ==> r == ApplySetCommand(PendingCommand(messages).value.0, PendingCommand(messages).value.1, w)
    ensures PendingCommand(messages).None? ==> r.effects == [] && r.world == w
    ensures !Telegram.HasResults(messages) ==> r.raised.None?
    ensures Telegram.HasResults(messages) ==>
      var last := Telegram.LastUpdate(messages);
      (last.message.None? || last.message.value.text.None? ==> r == Phase([], w, Some(KeyError)))
    // a last text that is not a `/set` command is ignored without error
    ensures Telegram.HasResults(messages) ==>
      var last := Telegram.LastUpdate(messages);
      (last.message.Some? && last.message.value.text.Some? && PendingCommand(messages).None? ==> r == Phase([], w, None))
    ensures Quiet(r.effects) && Offline(r.effects)
  {
    if !Telegram.HasResults(messages) then Phase([], w, None)
    else
      var last := Telegram.LastUpdate(messages);
      if last.message.None? || last.message.value.text.None? then Phase([], w, Some(KeyError))
      else
        match ParseSetCommand(last.message.value.text.value)
        case None => Phase([], w, None)
        case Some((s, d)) => ApplySetCommand(s, d, w)
  }

  /** The effects of the update request itself. */
  function PollEffects(p: Telegram.Poll): (r: seq<Effect>)
    // connect, then the request with the offset read from the cursor file
    ensures |r| >= 2 && r[0] == Connect && r[1] == GetUpdates(p.offset)
    // the cursor file is written, once and last, exactly when the call wrote it
    ensures p.written.Some? <==> |r| == 3
    ensures p.written.Some? ==> r[2] == WriteUpdateId(p.written.value)
    ensures forall k :: 0 <= k < 2 ==> !r[k].WriteUpdateId?
    ensures Quiet(r) && SendMessage !in r
    ensures forall e :: e in r ==> !e.Sensor? && !e.WriteSettingsFile?
  {
    [Connect, GetUpdates(p.offset)] + (if p.written.Some? then [WriteUpdateId(p.written.value)] else [])
  }

  /** `check_new_params` once the cursor file has been read: the request, the
      cursor update, then the handling of the reply. */
  function Polled(p: Telegram.Poll, w: World): (r: Phase)
    ensures Quiet(r.effects) && SendMessage !in r.effects
    ensures |r.effects| >= 2 && r.effects[0] == Connect && r.effects[1] == GetUpdates(p.offset)
    ensures r.world.updateIdFile == Telegram.FileAfter(w.updateIdFile, p)
    // a command in the last result is saved, and reloaded into the sensor
    ensures PendingCommand(p.messages).Some? ==>
      var (s, d) := PendingCommand(p.messages).value;
      && r.world.settings == Settings.Stored(s, d)
      && WriteSettingsFile(s, d) in r.effects
      && (s < 256 && d < 256 ==> r.raised.None? && RegsHold(r.world.regs, s, d))
    // no command: the settings and the sensor are untouched
    ensures PendingCommand(p.messages).None? ==>
      && r.world.settings == w.settings && r.world.regs == w.regs
      && forall e :: e in r.effects ==> !e.Sensor? && !e.WriteSettingsFile?
  {
    var w1 := w.(updateIdFile := Telegram.FileAfter(w.updateIdFile, p));
    var reply := HandleReply(p.messages, w1);
    var polled := PollEffects(p);
    QuietAppend(polled, reply.effects);
    if PendingCommand(p.messages).Some? then
      InAppend(reply.effects, polled, reply.effects[0]);
      Phase(polled + reply.effects, reply.world, reply.raised)
    else
      Phase(polled + reply.effects, reply.world, reply.raised)
  }

  /** `check_new_params`: connect, fetch updates, and apply a `/set` command found
      in the last result. A cursor line that is not a number raises ValueError
      before any request; a missing cursor file sends the request without an
      offset. A request that raises ends the call with nothing written. */
  function CheckNewParams(server: Telegram.Server, w: World): (r: Phase)
    ensures Quiet(r.effects) && SendMessage !in r.effects
    ensures |r.effects| > 0 && r.effects[0] == Connect
    ensures Telegram.RequestOffset(w.updateIdFile).Err? ==>
      r.effects == [Connect] && r.world == w && r.raised == Some(ValueError)
    ensures Telegram.RequestOffset(w.updateIdFile).Ok? ==>
      var offset := Telegram.RequestOffset(w.updateIdFile).value;
      && |r.effects| >= 2 && r.effects[1] == GetUpdates(offset)
      && (server(offset).Err? ==>
            r.effects == [Connect, GetUpdates(offset)] && r.world == w && r.raised == Some(server(offset).error))
    ensures Telegram.GetMessages(w.updateIdFile, server).Ok? ==>
      r == Polled(Telegram.GetMessages(w.updateIdFile, server).value, w)
    ensures r.raised.None? ==> |r.effects| >= 2 && r.effects[1].GetUpdates?
  {
    match Telegram.RequestOffset(w.updateIdFile)
    case Err(e) => Phase([Connect], w, Some(e))
    case Ok(offset) =>
      match Telegram.GetMessages(w.updateIdFile, server)
      case Err(e) => Phase([Connect, GetUpdates(offset)], w, Some(e))
      case Ok(p) => Polled(p, w)
  }

  /** `send_notification`. */
  function SendNotification(outcome: NotifyOutcome, w: World): (r: Phase)
    ensures Quiet(r.effects) && r.world == w
    ensures r.raised.None? <==> outcome == Sent
    ensures r.raised.None? ==> r.effects == [Connect, SendMessage]
  {
    match outcome
    case Sent => Phase([Connect, SendMessage], w, None)
    case BatteryLookupFails => Phase([Connect], w, Some(AttributeError))
    case SendFails => Phase([Connect, SendMessage], w, Some(NetworkError))
  }

  /** `load_settings` as a phase of the boot. */
  function LoadPhase(w: World): (r: Phase)
    ensures Quiet(r.effects) && Offline(r.effects) && SettingsWrites(r.effects)
    ensures r.world.settings == w.settings && r.world.updateIdFile == w.updateIdFile
    ensures r.raised == Settings.LoadSettings(w.settings, w.regs).raised
  {
    var run := Settings.LoadSettings(w.settings, w.regs);
    Phase(Lift(run.log), w.(regs := run.regs), run.raised)
  }

  /** `sleep(time)`: the LED goes off, then the deep sleep. */
  function Sleep(timeoutMs: Option<int>, w: World): (r: Phase)
    // the LED goes off, then the one deep sleep ends the boot
    ensures r.raised.None? && Completes(r) && r.effects[|r.effects| - 1] == DeepSleep(timeoutMs)
    // no network traffic and no register or file change
    ensures Offline(r.effects) && r.world == w
  {
    Phase([LedOff, DeepSleep(timeoutMs)], w, None)
  }

  /** `sleep_before_notification`. */
  function SleepBeforeNotification(w: World): (r: Phase)
    // forty minutes, in milliseconds
    ensures r.raised.None? && Completes(r) && r.effects[|r.effects| - 1] == DeepSleep(Some(2400000))
    ensures Offline(r.effects) && r.world == w
  {
    Sleep(Some(NOTIFICATION_SLEEP_MS), w)
  }

  const REARM: seq<Effect> := [ArmExt0(INT_PIN, AnyHigh), LedOff, DeepSleep(None)]

  /** `wait_for_next_wake`: arm ext0 on the interrupt pin, then sleep without a timeout. */
  function WaitForNextWake(w: World): (r: Phase)
    ensures r.effects == REARM && r.raised.None? && r.world == w
  {
    Chain(Phase([ArmExt0(INT_PIN, AnyHigh)], w, None), Sleep(None, w))
  }

  /** No sleep and no arming in `s`. */
  ghost predicate Unfinished(s: seq<Effect>) {
    forall e :: e in s ==> !e.DeepSleep? && !e.ArmExt0?
  }

  /** No deep sleep in `s`. */
  ghost predicate NoSleep(s: seq<Effect>) {
    forall e :: e in s ==> !e.DeepSleep?
  }

  /** A boot, or the tail of one, that either ends in exactly one deep sleep right
      after the LED is switched off, or raised without sleeping or arming. */
  ghost predicate Completes(p: Phase) {
    if p.raised.None? then
      && |p.effects| >= 2
      && p.effects[|p.effects| - 1].DeepSleep?
      && p.effects[|p.effects| - 2] == LedOff
      && NoSleep(p.effects[..|p.effects| - 1])
    else Unfinished(p.effects)
  }

  lemma EndsInSleep(front: seq<Effect>, tail: seq<Effect>, w: World)
    requires Quiet(front) && |tail| >= 2 && tail[|tail| - 1].DeepSleep? && tail[|tail| - 2] == LedOff
    requires NoSleep(tail[..|tail| - 1])
    ensures Completes(Phase(front + tail, w, None))
  {
    var e := front + tail;
    assert e[..|e| - 1] == front + tail[..|tail| - 1];
  }

  /** The branch of `start` for a timer wake. */
  function TimerBranch(env: Env, w: World): (r: Phase)
    ensures Completes(r) && ReadWakeReason !in r.effects
    // it completes exactly when the poll, the notification and the reload all do
    ensures var c := CheckNewParams(env.server, w);
      r.raised.None? <==> c.raised.None? && env.notify == Sent && LoadPhase(c.world).raised.None?
    ensures r.raised.None? ==>
      var c := CheckNewParams(env.server, w);
      && r.effects == c.effects + [Connect, SendMessage] + LoadPhase(c.world).effects + REARM
      && r.world == LoadPhase(c.world).world
    ensures CheckNewParams(env.server, w).raised.Some? || env.notify != Sent ==>
      r.raised.Some? && Quiet(r.effects)
    // a failed poll ends the branch there; a failed notification ends it after
    // the poll: neither reloads the settings nor re-arms
    ensures CheckNewParams(env.server, w).raised.Some? ==> r == CheckNewParams(env.server, w)
    ensures var c := CheckNewParams(env.server, w);
      var n := SendNotification(env.notify, c.world);
      c.raised.None? && env.notify != Sent ==> r == Phase(c.effects + n.effects, c.world, n.raised)
  {
    AfterPoll(CheckNewParams(env.server, w), env.notify)
  }

  /** The rest of the timer branch once the poll `c` has run: the notification,
      the reload and the re-arm, each only if everything before it completed. */
  function AfterPoll(c: Phase, notify: NotifyOutcome): (r: Phase)
    requires Quiet(c.effects)
    ensures Completes(r) && ReadWakeReason !in r.effects
    ensures r.raised.None? <==> c.raised.None? && notify == Sent && LoadPhase(c.world).raised.None?
    ensures r.raised.None? ==>
      && r.effects == c.effects + [Connect, SendMessage] + LoadPhase(c.world).effects + REARM
      && r.world == LoadPhase(c.world).world
    ensures c.raised.Some? || notify != Sent ==> r.raised.Some? && Quiet(r.effects)
    ensures c.raised.Some? ==> r == c
    ensures var n := SendNotification(notify, c.world);
      c.raised.None? && notify != Sent ==> r == Phase(c.effects + n.effects, c.world, n.raised)
  {
    var n := Chain(c, SendNotification(notify, c.world));
    var l := Chain(n, LoadPhase(n.world));
    var r := Chain(l, WaitForNextWake(l.world));
    if c.raised.Some? then
      assert r == c;
      r
    else if notify != Sent then
      assert n.raised.Some? && r == n;
      r
    else if r.raised.None? then
      EndsInSleep(l.effects, REARM, l.world);
      r
    else
      r
  }

  /** The branch of `start` for any wake that is neither timer nor pin. */
  function OtherBranch(w: World): (r: Phase)
    ensures Completes(r) && ReadWakeReason !in r.effects && Offline(r.effects)
    ensures r.raised == LoadPhase(w).raised
    ensures r.raised.None? ==> r.effects == LoadPhase(w).effects + REARM
    ensures r.raised.Some? ==> r.effects == LoadPhase(w).effects
  {
    var l := LoadPhase(w);
    var r := Chain(l, WaitForNextWake(l.world));
    if r.raised.None? then EndsInSleep(l.effects, REARM, l.world); r else r
  }

  /** What `start` does after reading the wake reason. */
  function WakeBranch(env: Env, w: World): (r: Phase)
    ensures Completes(r) && ReadWakeReason !in r.effects
  {
    match env.wake
    case TimerWake => TimerBranch(env, w)
    case PinWake => SleepBeforeNotification(w)
    case OtherWake => OtherBranch(w)
  }

  /** Reading the wake reason before a phase keeps it complete. */
  lemma ReadFirst(b: Phase)
    requires Completes(b) && ReadWakeReason !in b.effects
    ensures var r := Phase([ReadWakeReason] + b.effects, b.world, b.raised);
      Completes(r) && r.effects[1..] == b.effects
  {
    var e := [ReadWakeReason] + b.effects;
    assert e[1..] == b.effects;
    if b.raised.None? {
      assert e[..|e| - 1] == [ReadWakeReason] + b.effects[..|b.effects| - 1];
    }
  }

  /** `start`: read the wake reason once and branch on it. */
  function Start(env: Env, w: World): (r: Phase)
    ensures Completes(r)
    ensures |r.effects| > 0 && r.effects[0] == ReadWakeReason && ReadWakeReason !in r.effects[1..]
  {
    var b := WakeBranch(env, w);
    ReadFirst(b);
    Phase([ReadWakeReason] + b.effects, b.world, b.raised)
  }

  /** The registers after a successful sensor initialisation. */
  function InitRegs(w: World): map<int, Byte> {
    w.regs[Lis3dh.CTRL_REG5 := Lis3dh.CTRL_REG5_VALUE][Lis3dh.CTRL_REG1 := Lis3dh.CTRL_REG1_VALUE]
          [Lis3dh.CTRL_REG4 := Lis3dh.CTRL_REG4_VALUE][Lis3dh.CTRL_REG2 := Lis3dh.CTRL_REG2_VALUE]
          [Lis3dh.CTRL_REG3 := Lis3dh.CTRL_REG3_VALUE][Lis3dh.INT1_THS := Lis3dh.DEFAULT_THRESHOLD]
          [Lis3dh.INT1_DURATION := Lis3dh.DEFAULT_DURATION][Lis3dh.INT1_CFG := Lis3dh.INT1_CFG_VALUE]
  }

  lemma InitRegsAgree(w: World)
    ensures InitRegs(w) == Lis3dh.Init(Lis3dh.WHO_AM_I_ID, w.regs).regs
  {
  }

  /** One boot: `WashingMachine()` (whose accelerometer constructor runs `init`),
      then `start()`. A sensor that fails the identity check raises in the
      constructor; otherwise the full initialisation sequence precedes `start`. */
  function Boot(env: Env, w: World): (r: Phase)
    // the identity read comes before anything else
    ensures |r.effects| > 0 && r.effects[0] == Sensor(Lis3dh.Read(Lis3dh.WHO_AM_I))
    // `start` runs, and reads the wake reason, exactly when the sensor is present
    ensures ReadWakeReason in r.effects <==> env.whoAmI == Lis3dh.WHO_AM_I_ID
    // one deep sleep ends the boot, or it raises without sleeping or arming
    ensures Completes(r)
  {
    if env.whoAmI != Lis3dh.WHO_AM_I_ID then
      Phase([Sensor(Lis3dh.Read(Lis3dh.WHO_AM_I))], w, Some(SensorNotFound))
    else
      var s := Start(env, w.(regs := InitRegs(w)));
      InitThen(s);
      Phase(Lift(Lis3dh.INIT_LOG) + s.effects, s.world, s.raised)
  }

  /** Prefixing the initialisation accesses keeps a phase complete and adds no
      wake-reason read. */
  lemma InitThen(s: Phase)
    requires Completes(s)
    ensures var e := Lift(Lis3dh.INIT_LOG) + s.effects;
      && |e| > 0 && e[0] == Sensor(Lis3dh.Read(Lis3dh.WHO_AM_I))
      && (ReadWakeReason in e <==> ReadWakeReason in s.effects)
      && Completes(Phase(e, s.world, s.raised))
  {
    var init := Lift(Lis3dh.INIT_LOG);
    assert Quiet(init) && Unfinished(init);
    if s.raised.None? {
      EndsInSleep(init, s.effects, s.world);
    }
  }

  /** `Boot` is the accelerometer's `init` run followed, unless it raised, by `start`. */
  lemma BootRunsInit(env: Env, w: World)
    ensures var init := Lis3dh.Init(env.whoAmI, w.regs);
      Boot(env, w) == Chain(Phase(Lift(init.log), w.(regs := init.regs), init.raised), Start(env, w.(regs := init.regs)))
  {
    var init := Lis3dh.Init(env.whoAmI, w.regs);
    if env.whoAmI == Lis3dh.WHO_AM_I_ID {
      InitRegsAgree(w);
      assert init.log == Lis3dh.INIT_LOG && init.raised.None?;
    } else {
      assert init.log == [Lis3dh.Read(Lis3dh.WHO_AM_I)] && init.regs == w.regs;
      assert Lift(init.log) == [Sensor(Lis3dh.Read(Lis3dh.WHO_AM_I))];
    }
  }

  // ---------------------------------------------------------------------------
  // Properties of a boot

  /** A sensor that fails its identity check stops the boot in the constructor:
      no wake reason is read and nothing else happens. */
  lemma MissingSensorStopsBoot(env: Env, w: World)
    requires env.whoAmI != Lis3dh.WHO_AM_I_ID
    ensures Boot(env, w).effects == [Sensor(Lis3dh.Read(Lis3dh.WHO_AM_I))]
    ensures Boot(env, w).raised == Some(SensorNotFound)
  {
  }

  /** The boot of a sensor that passes the identity check: the initialisation
      accesses, then `start` on the initialised registers. */
  lemma BootAfterInit(env: Env, w: World) returns (s: Phase)
    requires env.whoAmI == Lis3dh.WHO_AM_I_ID
    ensures s == Start(env, w.(regs := InitRegs(w)))
    ensures Boot(env, w) == Phase(Lift(Lis3dh.INIT_LOG) + s.effects, s.world, s.raised)
    ensures Unfinished(Lift(Lis3dh.INIT_LOG)) && Quiet(Lift(Lis3dh.INIT_LOG)) && Offline(Lift(Lis3dh.INIT_LOG))
  {
    s := Start(env, w.(regs := InitRegs(w)));
  }

  /** A timer wake whose `start` completes does, in order: the poll for
      commands, the notification, the settings reload, then arms ext0 on pin 17
      for a high level and sleeps with no timeout. */
  lemma TimerWakeSequence(env: Env, w: World) returns (poll: seq<Effect>, load: seq<Effect>)
    requires env.wake == TimerWake && Start(env, w).raised.None?
    ensures Start(env, w).effects == [ReadWakeReason] + (poll + [Connect, SendMessage] + load + REARM)
    ensures |poll| >= 2 && poll[0] == Connect && poll[1].GetUpdates?
    ensures Quiet(poll) && SendMessage !in poll
    ensures SettingsWrites(load)
  {
    TimerStart(env, w);
    var t := TimerBranch(env, w);
    assert t.raised.None?;
    var c := TimerBranchCompleted(env, w);
    poll := c.effects;
    load := LoadPhase(c.world).effects;
    assert Start(env, w).effects == [ReadWakeReason] + t.effects;
  }

  /** A timer branch that completes went through a poll that completed. */
  lemma TimerBranchCompleted(env: Env, w: World) returns (c: Phase)
    requires TimerBranch(env, w).raised.None?
    ensures c == CheckNewParams(env.server, w) && c.raised.None?
    ensures TimerBranch(env, w).effects == c.effects + [Connect, SendMessage] + LoadPhase(c.world).effects + REARM
  {
    c := CheckNewParams(env.server, w);
  }

  /** A pin wake makes no network call, does not reload settings or arm ext0,
      and sleeps for DELAY_BEFORE_NOTIFICATION minutes. */
  lemma PinWakeSequence(env: Env, w: World)
    requires env.wake == PinWake
    ensures Start(env, w) == Phase([ReadWakeReason, LedOff, DeepSleep(Some(2400000))], w, None)
  {
    assert NOTIFICATION_SLEEP_MS == 2400000;
  }

  /** Any other wake makes no network call; it reloads the settings, then arms
      ext0 and sleeps with no timeout, unless the reload raises. */
  lemma OtherWakeSequence(env: Env, w: World) returns (load: seq<Effect>)
    requires env.wake == OtherWake
    ensures Offline(Start(env, w).effects)
    ensures SettingsWrites(load)
    ensures Start(env, w).raised == Settings.LoadSettings(w.settings, w.regs).raised
    ensures Start(env, w).raised.None? ==> Start(env, w).effects == [ReadWakeReason] + (load + REARM)
    ensures Start(env, w).raised.Some? ==> Start(env, w).effects == [ReadWakeReason] + load
  {
    load := LoadPhase(w).effects;
    var o := OtherBranch(w);
    assert Start(env, w).effects == [ReadWakeReason] + o.effects;
  }

  /** On a timer wake, a failing poll or a failing notification ends `start`
      without reloading settings, arming ext0 or sleeping: the trace stops
      after the poll or after the notification attempt, and the world is the
      one the poll left. */
  lemma TimerFailureSkipsRearm(env: Env, w: World)
    requires env.wake == TimerWake
    requires CheckNewParams(env.server, w).raised.Some? || env.notify != Sent
    ensures Start(env, w).raised.Some?
    ensures Unfinished(Start(env, w).effects) && Quiet(Start(env, w).effects[1..])
    ensures var c := CheckNewParams(env.server, w);
      && Start(env, w).effects
           == [ReadWakeReason] + c.effects + (if c.raised.None? then SendNotification(env.notify, c.world).effects else [])
      && Start(env, w).world == c.world
  {
    var r := Start(env, w);
    var t := TimerBranch(env, w);
    TimerStart(env, w);
    assert r.effects == [ReadWakeReason] + t.effects;
    assert r.effects[1..] == t.effects;
  }

  /** The code as written: its notification always fails, so every timer wake
      raises AttributeError or an earlier error, sends no message, and never
      re-arms or sleeps. */
  lemma AsWrittenTimerWakeNeverRearms(env: Env, w: World)
    requires env.wake == TimerWake && env.notify == NOTIFY_AS_WRITTEN
    ensures Start(env, w).raised.Some? && Unfinished(Start(env, w).effects)
    ensures SendMessage !in Start(env, w).effects
    ensures CheckNewParams(env.server, w).raised.None? ==> Start(env, w).raised == Some(AttributeError)
  {
    TimerFailureSkipsRearm(env, w);
    var c := CheckNewParams(env.server, w);
    var n := SendNotification(env.notify, c.world);
    assert c.raised.None? ==> n.effects == [Connect];
    assert SendMessage !in [ReadWakeReason] + c.effects;
  }

  /** The number of times `x` occurs in `s`. */
  function Count(s: seq<Effect>, x: Effect): nat {
    if |s| == 0 then 0 else Count(s[..|s| - 1], x) + (if s[|s| - 1] == x then 1 else 0)
  }

  lemma {:induction false} CountAppend(a: seq<Effect>, b: seq<Effect>, x: Effect)
    ensures Count(a + b, x) == Count(a, x) + Count(b, x)
    decreases |b|
  {
    if |b| > 0 {
      CountAppend(a, b[..|b| - 1], x);
      assert (a + b)[..|a + b| - 1] == a + b[..|b| - 1];
    } else {
      assert a + b == a;
    }
  }

  lemma {:induction false} CountAbsent(s: seq<Effect>, x: Effect)
    requires x !in s
    ensures Count(s, x) == 0
    decreases |s|
  {
    if |s| > 0 {
      assert x !in s[..|s| - 1];
      CountAbsent(s[..|s| - 1], x);
    }
  }

  /** A boot reads the wake reason at most once: never when the sensor is
      missing, otherwise exactly once. */
  lemma WakeReasonReadOnce(env: Env, w: World)
    ensures Count(Boot(env, w).effects, ReadWakeReason) == if env.whoAmI == Lis3dh.WHO_AM_I_ID then 1 else 0
  {
    var e := Boot(env, w).effects;
    if env.whoAmI != Lis3dh.WHO_AM_I_ID {
      CountAbsent(e, ReadWakeReason);
    } else {
      var s := BootAfterInit(env, w);
      var init := Lift(Lis3dh.INIT_LOG);
      var rest := s.effects[1..];
      assert e == init + ([ReadWakeReason] + rest);
      CountAppend(init, [ReadWakeReason] + rest, ReadWakeReason);
      CountAppend([ReadWakeReason], rest, ReadWakeReason);
      CountAbsent(init, ReadWakeReason);
      CountAbsent(rest, ReadWakeReason);
      assert Count([ReadWakeReason], ReadWakeReason) == 1;
    }
  }

  lemma LastOfAppend(a: seq<Effect>, b: seq<Effect>)
    requires |b| > 0
    ensures (a + b)[..|a + b| - 1] == a + b[..|b| - 1]
    ensures (a + b)[|a + b| - 1] == b[|b| - 1]
  {
  }

  /** A boot either reaches exactly one deep sleep, as its last effect and
      right after the LED is switched off, or raises and never sleeps or arms. */
  lemma SleepIsLast(env: Env, w: World)
    ensures var e := Boot(env, w).effects;
      && (Boot(env, w).raised.None? ==>
            && |e| >= 2 && e[|e| - 1].DeepSleep? && e[|e| - 2] == LedOff
            && NoSleep(e[..|e| - 1]) && Count(e, e[|e| - 1]) == 1)
      && (Boot(env, w).raised.Some? ==> Unfinished(e))
  {
    var b := Boot(env, w);
    var e := b.effects;
    if env.whoAmI == Lis3dh.WHO_AM_I_ID {
      var s := BootAfterInit(env, w);
      var init := Lift(Lis3dh.INIT_LOG);
      if b.raised.None? {
        LastOfAppend(init, s.effects);
        NoSleepAppend(init, s.effects[..|s.effects| - 1]);
        SleepCountedOnce(e);
      }
    }
  }

  lemma QuietAppend(a: seq<Effect>, b: seq<Effect>)
    requires Quiet(a) && SendMessage !in a && Quiet(b) && Offline(b)
    ensures Quiet(a + b) && SendMessage !in a + b
  {
  }

  lemma NoSleepAppend(a: seq<Effect>, b: seq<Effect>)
    requires Unfinished(a) && NoSleep(b)
    ensures NoSleep(a + b)
  {
  }

  /** A trace whose only deep sleep is its last effect contains that effect once. */
  lemma SleepCountedOnce(e: seq<Effect>)
    requires |e| > 0 && e[|e| - 1].DeepSleep? && NoSleep(e[..|e| - 1])
    ensures Count(e, e[|e| - 1]) == 1
  {
    var last := e[|e| - 1];
    var front := e[..|e| - 1];
    assert e == front + [last];
    CountAppend(front, [last], last);
    CountAbsent(front, last);
  }

  /** Every boot ends in exactly one deep sleep or raises without sleeping or
      arming, and reads the wake reason at most once. */
  lemma OneSleepPerBoot(env: Env, w: World)
    ensures var e := Boot(env, w).effects;
      && (Boot(env, w).raised.None? ==>
            && |e| >= 2 && e[|e| - 1].DeepSleep? && e[|e| - 2] == LedOff
            && NoSleep(e[..|e| - 1]) && Count(e, e[|e| - 1]) == 1)
      && (Boot(env, w).raised.Some? ==> Unfinished(e))
      && Count(e, ReadWakeReason) <= 1
  {
    SleepIsLast(env, w);
    WakeReasonReadOnce(env, w);
  }

  /** A pending byte-sized `/set` command is saved by the poll, which then
      completes. */
  lemma PollSavesCommand(server: Telegram.Server, w: World, s: nat, d: nat)
    requires s < 256 && d < 256
    requires Telegram.GetMessages(w.updateIdFile, server).Ok?
    requires PendingCommand(Telegram.GetMessages(w.updateIdFile, server).value.messages) == Some((s, d))
    ensures var c := CheckNewParams(server, w);
      c.raised.None? && c.world.settings == Settings.Stored(s, d) && WriteSettingsFile(s, d) in c.effects
  {
  }

  /** Reloading a file that holds byte-sized values completes and leaves them
      in the sensor. */
  lemma StoredSettingsLoad(w: World, s: nat, d: nat)
    requires s < 256 && d < 256 && w.settings == Settings.Stored(s, d)
    ensures LoadPhase(w).raised.None? && RegsHold(LoadPhase(w).world.regs, s, d)
  {
    Settings.SaveThenLoad(s, d, w.regs);
  }

  /** The timer branch with a pending byte-sized `/set` command and a
      notification that goes out: the values are saved, loaded into the sensor,
      and the branch ends re-armed. */
  lemma TimerBranchAppliesCommand(env: Env, w: World, s: nat, d: nat)
    requires env.notify == Sent && s < 256 && d < 256
    requires Telegram.GetMessages(w.updateIdFile, env.server).Ok?
    requires PendingCommand(Telegram.GetMessages(w.updateIdFile, env.server).value.messages) == Some((s, d))
    ensures var t := TimerBranch(env, w);
      && t.raised.None?
      && t.world.settings == Settings.Stored(s, d)
      && RegsHold(t.world.regs, s, d)
      && WriteSettingsFile(s, d) in t.effects
      && t.effects[|t.effects| - 3..] == REARM
  {
    var c := CheckNewParams(env.server, w);
    PollSavesCommand(env.server, w, s, d);
    StoredSettingsLoad(c.world, s, d);
    var t := TimerBranch(env, w);
    var front := c.effects + [Connect, SendMessage] + LoadPhase(c.world).effects;
    assert t.effects == front + REARM;
    InAppend(c.effects, [Connect, SendMessage], WriteSettingsFile(s, d));
    InAppend(c.effects + [Connect, SendMessage], LoadPhase(c.world).effects, WriteSettingsFile(s, d));
    InAppend(front, REARM, WriteSettingsFile(s, d));
  }

  /** The timer-wake scenario with a pending command: a last message
      `/set s d …` with byte-sized values and a notification that goes out; the
      values are saved and loaded, and `start` ends re-armed with them in the
      sensor. */
  lemma TimerWakeAppliesCommand(env: Env, w: World, s: nat, d: nat)
    requires env.wake == TimerWake && env.notify == Sent && s < 256 && d < 256
    requires Telegram.GetMessages(w.updateIdFile, env.server).Ok?
    requires PendingCommand(Telegram.GetMessages(w.updateIdFile, env.server).value.messages) == Some((s, d))
    ensures var r := Start(env, w);
      && r.raised.None?
      && r.world.settings == Settings.Stored(s, d)
      && RegsHold(r.world.regs, s, d)
      && WriteSettingsFile(s, d) in r.effects
      && r.effects[|r.effects| - 3..] == REARM
  {
    TimerBranchAppliesCommand(env, w, s, d);
    TimerStart(env, w);
    var t := TimerBranch(env, w);
    InAppend(t.effects, [ReadWakeReason], WriteSettingsFile(s, d));
    SuffixOfAppend([ReadWakeReason], t.effects, REARM);
  }

  /** `start` on a timer wake: the wake-reason read, then the timer branch. */
  lemma TimerStart(env: Env, w: World)
    requires env.wake == TimerWake
    ensures Start(env, w) == Phase([ReadWakeReason] + TimerBranch(env, w).effects, TimerBranch(env, w).world, TimerBranch(env, w).raised)
  {
  }

  lemma InAppend(a: seq<Effect>, b: seq<Effect>, x: Effect)
    requires x in a
    ensures x in a + b && x in b + a
  {
  }

  lemma SuffixOfAppend(a: seq<Effect>, b: seq<Effect>, c: seq<Effect>)
    requires |c| <= |b| && b[|b| - |c|..] == c
    ensures (a + b)[|a + b| - |c|..] == c
  {
    assert (a + b)[|a + b| - |c|..] == b[|b| - |c|..];
  }
}

=== FILE: websocket.dfy ===
/** The battery server's WebSocket layer: the opening handshake's key extraction
    (section 4.2.2 of RFC 6455), the server's frame encoder (section 5.2) and the
    client-frame decoder with its unmasking (section 5.3). Bytes are `seq<Byte>`;
    UTF-8 encoding and decoding are the identity on them. */
module WebSocket {
  import opened Common
  import opened Text
  import opened Bytes

  /** Python's `data[i:j]` for `0 <= i <= j`: bounds past the end are clamped. */
  function Slice<T>(s: seq<T>, i: nat, j: nat): (r: seq<T>)
    requires i <= j
    ensures |r| == (if j <= |s| then j - i else if i <= |s| then |s| - i else 0)
    ensures forall k :: 0 <= k < |r| ==> r[k] == s[i + k]
  {
    if i >= |s| then [] else if j >= |s| then s[i..] else s[i..j]
  }

  /** Python's `data[i:]`: empty when `i` is past the end. */
  function From<T>(s: seq<T>, i: nat): (r: seq<T>)
    ensures |r| == (if i <= |s| then |s| - i else 0)
    ensures forall k :: 0 <= k < |r| ==> r[k] == s[i + k]
  {
    if i >= |s| then [] else s[i..]
  }

  // ---------------------------------------------------------------------------
  // Server frames (send_data)
  // ---------------------------------------------------------------------------

  /** FIN set, opcode 1 (text). */
  const TEXT_FIN: Byte := 0x81
  /** Length codes announcing a 16-bit and a 64-bit extended payload length. */
  const LEN16: Byte := 126
  const LEN64: Byte := 127
  /** Payloads must be shorter than this for `to_bytes(8)` to succeed. */
  const LIMIT64: nat := 0x1_0000_0000_0000_0000

  lemma PowFacts()
    ensures Pow256(2) == 0x1_0000 && Pow256(8) == LIMIT64
  {
    assert Pow256(1) == 256;
    assert Pow256(2) == 0x1_0000;
    assert Pow256(4) == 0x1_0000_0000;
  }

  /** `send_data`: the frame the server writes for `message`. A message of 2^64
      bytes or more cannot have its length packed into 8 bytes, which raises. The
      frame never sets the mask bit, and the payload follows the header as is. */
  function EncodeFrame(message: seq<Byte>): (r: Result<seq<Byte>>)
    ensures r.Err? <==> |message| >= LIMIT64
    ensures r.Err? ==> r.error == OverflowError
    ensures r.Ok? ==> |r.value| >= 2 && r.value[0] == TEXT_FIN && r.value[1] < 128
    ensures r.Ok? && |message| <= 125 ==>
      r.value[1] == |message| && |r.value| == |message| + 2
    ensures r.Ok? && 126 <= |message| <= 65535 ==>
      r.value[1] == LEN16 && |r.value| == |message| + 4 && FromBigEndian(r.value[2..4]) == |message|
    ensures r.Ok? && 65535 < |message| ==>
      r.value[1] == LEN64 && |r.value| == |message| + 10 && FromBigEndian(r.value[2..10]) == |message|
    ensures r.Ok? ==> r.value[|r.value| - |message|..] == message
  {
    var n := |message|;
    PowFacts();
    if n <= 125 then
      Ok([TEXT_FIN, n] + message)
    else if n <= 65535 then
      var len := ToBigEndian(n, 2);
      BigEndianRoundTrip(n, 2);
      assert ([TEXT_FIN, LEN16] + len + message)[2..4] == len;
      Ok([TEXT_FIN, LEN16] + len + message)
    else if n < LIMIT64 then
      var len := ToBigEndian(n, 8);
      BigEndianRoundTrip(n, 8);
      assert ([TEXT_FIN, LEN64] + len + message)[2..10] == len;
      Ok([TEXT_FIN, LEN64] + len + message)
    else
      Err(OverflowError)
  }

  /** A reader of unmasked server frames as section 5.2 of RFC 6455 lays them
      out: the length code in the low seven bits of byte 1, extended lengths in
      big-endian order, and a payload of exactly the announced length. */
  function ParseServerFrame(frame: seq<Byte>): (r: Option<seq<Byte>>)
    ensures r.Some? ==> |r.value| < |frame| && r.value == frame[|frame| - |r.value|..]
  {
    if |frame| < 2 || frame[0] != TEXT_FIN || frame[1] >= 128 then None
    else if frame[1] == LEN16 then
      if |frame| < 4 || |frame| != 4 + FromBigEndian(frame[2..4]) then None else Some(frame[4..])
    else if frame[1] == LEN64 then
      if |frame| < 10 || |frame| != 10 + FromBigEndian(frame[2..10]) then None else Some(frame[10..])
    else if |frame| != 2 + frame[1] then None
    else Some(frame[2..])
  }

  /** Every frame the server sends reads back, under the standard's layout, as
      the message it carries. */
  lemma EncodeThenParse(message: seq<Byte>)
    requires |message| < LIMIT64
    ensures EncodeFrame(message).Ok?
    ensures ParseServerFrame(EncodeFrame(message).value) == Some(message)
  {
    var frame := EncodeFrame(message).value;
    assert frame[|frame| - |message|..] == message;
    var n := |message|;
    if n <= 125 {
      assert frame[2..] == frame[|frame| - n..];
    } else if n <= 65535 {
      assert frame[4..] == frame[|frame| - n..];
    } else {
      assert frame[10..] == frame[|frame| - n..];
    }
  }

  // ---------------------------------------------------------------------------
  // Unmasking (receive_data, lines 63-65)
  // ---------------------------------------------------------------------------

  /** The mask is indexed at `i % 4` for every payload position `i`; this holds
      exactly when every such index lies inside the mask. */
  predicate MaskCovers(payload: seq<Byte>, mask: seq<Byte>) {
    |mask| >= 4 || |payload| <= |mask|
  }

  /** The reference meaning of unmasking: position `i` of the payload xor-ed with
      byte `i mod 4` of the masking key (section 5.3 of RFC 6455). */
  function Masked(payload: seq<Byte>, mask: seq<Byte>): (r: seq<Byte>)
    requires MaskCovers(payload, mask)
    ensures |r| == |payload|
  {
    seq(|payload|, i requires 0 <= i < |payload| => Xor(payload[i], mask[i % 4]))
  }

  /** The decoding loop of `receive_data`, byte by byte. */
  method Unmask(payload: seq<Byte>, mask: seq<Byte>) returns (out: seq<Byte>)
    requires MaskCovers(payload, mask)
    ensures |out| == |payload|
    ensures forall i :: 0 <= i < |payload| ==> out[i] == Xor(payload[i], mask[i % 4])
    ensures out == Masked(payload, mask)
  {
    out := [];
    var i := 0;
    while i < |payload|
      invariant 0 <= i <= |payload|
      invariant |out| == i
      invariant forall k :: 0 <= k < i ==> out[k] == Xor(payload[k], mask[k % 4])
    {
      out := out + [Xor(payload[i], mask[i % 4])];
      i := i + 1;
    }
  }

  lemma XorByteTwice(a: Byte, b: Byte)
    ensures Xor(Xor(a, b), b) == a
  {
    XorTwice(a, b);
  }

  /** Masking is its own inverse: unmasking a masked payload with the same key
      gives the payload back. */
  lemma UnmaskTwice(payload: seq<Byte>, mask: seq<Byte>)
    requires MaskCovers(payload, mask)
    ensures Masked(Masked(payload, mask), mask) == payload
  {
    var once := Masked(payload, mask);
    var twice := Masked(once, mask);
    forall i | 0 <= i < |payload|
      ensures twice[i] == payload[i]
    {
      XorByteTwice(payload[i], mask[i % 4]);
    }
  }

  // ---------------------------------------------------------------------------
  // Client frames (receive_data)
  // ---------------------------------------------------------------------------

  /** Where the masking key of a client frame starts, given the 7-bit length code. */
  function MaskStart(code: nat): nat {
    if code == 126 then 4 else if code == 127 then 10 else 2
  }

  /** `receive_data` as written: `None` for an empty read; otherwise the length
      code is taken from byte 0 (`data[0] & 127`), the four bytes after the header
      are the masking key and everything after them is the payload, whatever the
      announced length says. The mask never runs short of the payload. */
  function ReceiveData(data: seq<Byte>): (r: Option<seq<Byte>>)
    ensures r.None? <==> |data| == 0
    ensures |data| > 0 && data[0] % 128 == 126 ==> r == Some(Masked(From(data, 8), Slice(data, 4, 8)))
    ensures |data| > 0 && data[0] % 128 == 127 ==> r == Some(Masked(From(data, 14), Slice(data, 10, 14)))
    ensures |data| > 0 && data[0] % 128 < 126 ==> r == Some(Masked(From(data, 6), Slice(data, 2, 6)))
    ensures r.Some? ==> |r.value| == |From(data, MaskStart(data[0] % 128) + 4)|
  {
    if |data| == 0 then None
    else
      var code := Bitwise(AndOp, data[0], 127);
      LowSevenBits(data[0]);
      var start := MaskStart(code);
      var mask := Slice(data, start, start + 4);
      var payload := From(data, start + 4);
      Some(Masked(payload, mask))
  }

  /** The header a client puts in front of a masked payload of `n` bytes: FIN and
      text opcode, the mask bit with the length code, and an extended length. */
  function ClientHeader(n: nat): (h: seq<Byte>)
    requires n < LIMIT64
    ensures |h| == MaskStart(if n <= 125 then n else if n <= 65535 then 126 else 127)
  {
    PowFacts();
    if n <= 125 then [TEXT_FIN, 128 + n]
    else if n <= 65535 then [TEXT_FIN, 128 + LEN16] + ToBigEndian(n, 2)
    else [TEXT_FIN, 128 + LEN64] + ToBigEndian(n, 8)
  }

  /** A client text frame carrying `payload` masked with `mask`. */
  function ClientFrame(payload: seq<Byte>, mask: seq<Byte>): (f: seq<Byte>)
    requires |mask| == 4 && |payload| < LIMIT64
    ensures |f| == |ClientHeader(|payload|)| + 4 + |payload|
  {
    ClientHeader(|payload|) + mask + Masked(payload, mask)
  }

  lemma FrameParts(payload: seq<Byte>, mask: seq<Byte>)
    requires |mask| == 4 && |payload| < LIMIT64
    ensures var f := ClientFrame(payload, mask); var h := |ClientHeader(|payload|)|;
      Slice(f, h, h + 4) == mask && From(f, h + 4) == Masked(payload, mask)
  {
    var f := ClientFrame(payload, mask);
    var h := |ClientHeader(|payload|)|;
    assert f[h..h + 4] == mask;
    assert f[h + 4..] == Masked(payload, mask);
  }

  /** A short client text frame (at most 125 bytes) decodes to its payload. */
  lemma ShortClientFrame(payload: seq<Byte>, mask: seq<Byte>)
    requires |mask| == 4 && |payload| <= 125
    ensures ReceiveData(ClientFrame(payload, mask)) == Some(payload)
  {
    var f := ClientFrame(payload, mask);
    assert f[0] == TEXT_FIN && f[0] % 128 == 1;
    FrameParts(payload, mask);
    UnmaskTwice(payload, mask);
  }

  /** The misread: a client frame with a 16-bit extended length still has byte 0
      equal to 0x81, so the decoder takes the extended length bytes as the start of
      the masking key and returns two bytes more than were sent. */
  lemma LongClientFrameMisread(payload: seq<Byte>, mask: seq<Byte>)
    requires |mask| == 4 && 126 <= |payload| <= 65535
    ensures ReceiveData(ClientFrame(payload, mask)).Some?
    ensures |ReceiveData(ClientFrame(payload, mask)).value| == |payload| + 2
    ensures ReceiveData(ClientFrame(payload, mask)) != Some(payload)
  {
    var f := ClientFrame(payload, mask);
    assert f[0] == TEXT_FIN && f[0] % 128 == 1;
  }

  /** The decoder with the length code read from byte 1, as section 5.2 of RFC
      6455 places it. A read shorter than the two header bytes is not a frame. */
  function ReceiveFrame(data: seq<Byte>): (r: Option<seq<Byte>>)
    ensures r.None? <==> |data| < 2
    ensures r.Some? ==> var start := MaskStart(data[1] % 128);
      r.value == Masked(From(data, start + 4), Slice(data, start, start + 4))
  {
    if |data| < 2 then None
    else
      var code := Bitwise(AndOp, data[1], 127);
      LowSevenBits(data[1]);
      var start := MaskStart(code);
      Some(Masked(From(data, start + 4), Slice(data, start, start + 4)))
  }

  /** With the length code read from byte 1, every client frame decodes to its
      payload, whatever its length. */
  lemma ClientFrameRoundTrip(payload: seq<Byte>, mask: seq<Byte>)
    requires |mask| == 4 && |payload| < LIMIT64
    ensures ReceiveFrame(ClientFrame(payload, mask)) == Some(payload)
  {
    var f := ClientFrame(payload, mask);
    var n := |payload|;
    var code := if n <= 125 then n else if n <= 65535 then 126 else 127;
    assert f[1] == 128 + code;
    assert f[1] % 128 == code;
    FrameParts(payload, mask);
    UnmaskTwice(payload, mask);
  }

  // ---------------------------------------------------------------------------
  // Handshake (accept_connection)
  // ---------------------------------------------------------------------------

  const CRLF := "\r\n"
  const KEY_NAME := "Sec-WebSocket-Key"
  const FIELD_SEP := ": "
  /** The fixed GUID of section 1.3 of RFC 6455, appended to the key before hashing. */
  const GUID := "258EAFA5-E914-47DA-95CA-C5AB0DC85B11"

  predicate NamesKey(header: string) {
    Contains(header, KEY_NAME)
  }

  /** `header.split(": ")[1]`: the text between the first `": "` and the next one
      (or the end of the line). */
  function SecondField(header: string): (f: string)
    requires Contains(header, FIELD_SEP)
    ensures !Contains(f, FIELD_SEP)
    ensures !Contains(Split(header, FIELD_SEP)[0], FIELD_SEP)
  {
    SplitCount(header, FIELD_SEP);
    PiecesAreFree(header, FIELD_SEP);
    Split(header, FIELD_SEP)[1]
  }

  /** Where the second field sits in its line: right after the first `": "`, and
      followed by the end of the line or by another `": "`. */
  lemma SecondFieldShape(header: string)
    requires Contains(header, FIELD_SEP)
    ensures exists rest :: (header == Split(header, FIELD_SEP)[0] + FIELD_SEP + SecondField(header) + rest
      && (rest == "" || StartsWith(rest, FIELD_SEP)))
  {
    SplitCount(header, FIELD_SEP);
    SecondPieceShape(header, FIELD_SEP);
    assert SecondField(header) == Split(header, FIELD_SEP)[1];
  }

  /** The index of the last line naming the key, searching from the end. */
  function LastKeyLine(headers: seq<string>): (r: Option<nat>)
    ensures r.Some? ==> r.value < |headers| && NamesKey(headers[r.value])
    ensures r.Some? ==> forall l :: r.value < l < |headers| ==> !NamesKey(headers[l])
    ensures r.None? ==> forall j :: 0 <= j < |headers| ==> !NamesKey(headers[j])
  {
    if |headers| == 0 then None
    else if NamesKey(headers[|headers| - 1]) then Some(|headers| - 1)
    else
      var r := LastKeyLine(headers[..|headers| - 1]);
      assert forall j :: 0 <= j < |headers| - 1 ==> headers[..|headers| - 1][j] == headers[j];
      r
  }

  /** Some line names the key but has no `": "` to split the value off. */
  predicate KeyLineBroken(headers: seq<string>) {
    exists j :: 0 <= j < |headers| && NamesKey(headers[j]) && !Contains(headers[j], FIELD_SEP)
  }

  /** The key the handshake should find: the second field of the last line
      naming it, or `""` when no line does. */
  function ExpectedKey(headers: seq<string>): string
    requires !KeyLineBroken(headers)
  {
    match LastKeyLine(headers)
    case None => ""
    case Some(j) => SecondField(headers[j])
  }

  /** The key-extraction loop of `accept_connection`, which scans the lines from
      the first and overwrites the key at every line naming it. A line that names
      the key but has no `": "` makes `split(": ")[1]` raise IndexError on the
      spot. */
  method ExtractKey(request: string) returns (r: Result<string>)
    ensures r.Err? <==> KeyLineBroken(Split(request, CRLF))
    ensures r.Err? ==> r.error == IndexError
    ensures r.Ok? ==> r.value == ExpectedKey(Split(request, CRLF))
  {
    var headers := Split(request, CRLF);
    var key := "";
    var i := 0;
    while i < |headers|
      invariant 0 <= i <= |headers|
      invariant !KeyLineBroken(headers[..i])
      invariant key == ExpectedKey(headers[..i])
    {
      if Contains(headers[i], KEY_NAME) {
        var parts := Split(headers[i], FIELD_SEP);
        SplitCount(headers[i], FIELD_SEP);
        if |parts| < 2 {
          BrokenLine(headers, i);
          return Err(IndexError);
        }
        KeyLineFound(headers, i);
        key := parts[1];
      } else {
        KeyLineSkipped(headers, i, key);
      }
      i := i + 1;
    }
    assert headers[..i] == headers;
    return Ok(key);
  }

  lemma BrokenLine(headers: seq<string>, i: nat)
    requires i < |headers| && NamesKey(headers[i]) && !Contains(headers[i], FIELD_SEP)
    ensures KeyLineBroken(headers)
  {
  }

  /** A line that does not name the key leaves the expected key as it was. */
  lemma KeyLineSkipped(headers: seq<string>, i: nat, key: string)
    requires i < |headers| && !NamesKey(headers[i])
    requires !KeyLineBroken(headers[..i]) && key == ExpectedKey(headers[..i])
    ensures !KeyLineBroken(headers[..i + 1]) && key == ExpectedKey(headers[..i + 1])
  {
    var seen := headers[..i + 1];
    assert seen[..i] == headers[..i] && seen[i] == headers[i];
    assert LastKeyLine(seen) == LastKeyLine(headers[..i]);
  }

  /** A line that names the key and splits makes its second field the expected key. */
  lemma KeyLineFound(headers: seq<string>, i: nat)
    requires i < |headers| && NamesKey(headers[i]) && Contains(headers[i], FIELD_SEP)
    requires !KeyLineBroken(headers[..i])
    ensures !KeyLineBroken(headers[..i + 1]) && ExpectedKey(headers[..i + 1]) == SecondField(headers[i])
  {
    var seen := headers[..i + 1];
    assert seen[..i] == headers[..i] && seen[i] == headers[i];
    assert LastKeyLine(seen) == Some(i);
  }

  /** The accept value: the base64 text of the SHA-1 digest of the key followed
      by the GUID, with surrounding whitespace stripped. Both primitives are
      parameters. */
  function AcceptKey(key: string, sha1: string -> seq<Byte>, base64: seq<Byte> -> string): string {
    Strip(base64(sha1(key + GUID)))
  }

  const SWITCHING := "HTTP/1.1 101 Switching Protocols\r\nUpgrade: websocket\r\nConnection: Upgrade\r\n"
  const ACCEPT_NAME := "Sec-WebSocket-Accept: "

  /** The opening handshake: the response that accepts the upgrade, or the error
      raised while reading the key. */
  method Handshake(request: string, sha1: string -> seq<Byte>, base64: seq<Byte> -> string)
    returns (r: Result<string>)
    ensures r.Err? <==> KeyLineBroken(Split(request, CRLF))
    ensures r.Ok? ==> StartsWith(r.value, SWITCHING) && EndsWith(r.value, CRLF + CRLF)
    ensures r.Ok? ==> r.value == SWITCHING + ACCEPT_NAME + AcceptKey(ExpectedKey(Split(request, CRLF)), sha1, base64) + CRLF + CRLF
  {
    var key := ExtractKey(request);
    if key.Err? {
      return Err(key.error);
    }
    var response := SWITCHING + ACCEPT_NAME + AcceptKey(key.value, sha1, base64) + CRLF + CRLF;
    assert response[..|SWITCHING|] == SWITCHING;
    assert response[|response| - 4..] == CRLF + CRLF;
    return Ok(response);
  }
}
